=== FILE: README.md ===
# Switchboard (Split Domain) site resolution, in Dafny

Switchboard is a WordPress plugin that serves one content store on several
public domains. Each domain is a term of the site taxonomy (`Site::instance()->name`). A post
is assigned to some of these sites and may name one of them as its primary
site in the `post_domains` post meta. The plugin works out which site the
current request is on, and which site a post belongs to. From that it
redirects singular views to the post's site. It rewrites permalinks,
canonical URLs and admin URLs onto the right host, and sends admin screens
to the default site. It also purges cached URLs on every domain of a post.
Around this core sit a few string builders: the per-site template prefix,
a page-tree serialiser for select fields, and the class autoloader.

This project models that core:

- `core.dfy` (module `Core`) holds `class Core`. It reads the registry cache
  `split_domain_sites`, memoizes the current site term, and resolves a post's
  primary site, assigned sites, post site and default site. It also decides
  redirects, permalinks, canonical URLs, admin URLs and admin redirects.
  WordPress state is an `Env` value. The `site_term` field is a `Memo`. The
  specification functions take a memo and return the new memo in a `Step`.
  The methods of `class Core` update the field and are proved equal to those
  functions.
- `cache.dfy` (module `Cache`) holds the purge-URL list, built by nested loops
  and then passed through `array_unique`.
- `templates.dfy` (module `Templates`) holds `prefix` and
  `template_include_prefix`.
- `settings.dfy` (module `Settings`) holds `get_setting`.
- `walker.dfy` (module `WalkerPageArray`) holds `start_el`.
- `autoload.dfy` (module `Autoload`) holds the class-name-to-file mapping.
- `php.dfy` and `strings.dfy` write out the PHP semantics the code relies on:
  - `empty()`, truthiness, `(string)` and `intval()`;
  - `str_replace`, which replaces every occurrence;
  - `strpos(...) === false`, which is a substring test;
  - `ltrim`, `rtrim`, `strtolower`, `str_repeat`, `explode` and `implode`.

Calls into WordPress are inputs. This covers `get_term`, `get_the_terms`,
`get_post_meta`, `get_option`, the permalink, `home_url` and the request
host, `is_singular`, `is_admin`, `is_ssl` and `$_SERVER`. It also covers
`get_term_link`, `wp_make_link_relative`, `esc_url_raw`, `validate_file`,
`locate_template` and the plugin's filters. They appear as fields of `Env`,
`PurgeContext`, `Theme` and `AdminRequest`, or as parameters.
`wp_redirect` followed by `exit` becomes a returned `Redirect` value.
`require_once` becomes the returned file path.

Some behaviours of the code are easy to misread:

- A post with no assigned sites is not allowed on the current site
  (`lib/class-core.php:160-172`). `Core.NoSitesNotAllowed` states this.
- The primary site is honoured whether or not it is among the post's assigned
  sites (`lib/class-core.php:118-132`). `Core.PostPrimarySite` reads only the
  primary meta and the site terms.
- Redirects and link rewriting call `str_replace` on the whole URL. The
  "already on that host" test is a substring test. Neither is a comparison of
  hosts.
- The alias registry, hostname validation, `redirect_to_domain` and
  `is_post_allowed_on_site` are called by the tests and `lib/functions.php`.
  Their code is not part of this model.

## Model

| member | source | states |
|---|---|---|
| Settings.GetSetting | lib/class-settings.php:57-67 | With no key (null, "" or "0") the whole settings array is returned, defaulting to an empty array. A key that is set yields its stored value. Any other key yields `false`, never null. |
| Settings.AbsentOptionReadsFalse | lib/class-settings.php:58-66 | When the option is not stored, every key reads as `false`. |
| Core.CurrentSiteFromCache | lib/class-core.php:96-110 | Nothing exactly when the registry is empty. Otherwise the entry is found exactly when the home host has a non-empty entry, and then it is that entry with `name` set to the host and every other key unchanged. In every other case the result is `false`. |
| Core.ResolvedSiteTerm | lib/class-core.php:65-75 | The memoized term is the term of the cached id exactly when that term exists and its slug is not empty; otherwise `false`. |
| Core.CurrentSiteTerm | lib/class-core.php:48-83 | Once set, the memo alone gives the answer and stays as it is. With an unset memo: before `init`, anything but `slug`, `term_id` or `name` gives `false` and leaves the memo unset. With no cached term id the answer is `false` and the memo stays unset. A non-empty cached property is returned as stored and the memo stays unset. Otherwise the term is looked up, memoized, and it (or its property) is returned. Asking for `term_id` never sets the memo. A property request yields a scalar. |
| Core.MemoizedIgnoresRequest | lib/class-core.php:49-82 | Once the memo is set, the answer does not depend on the registry, the terms or the request. |
| Core.CachedIdAsString | lib/class-core.php:66-74 | A registry entry whose `term_id` is the decimal string of an existing term's id resolves to that term. |
| Core.MemoSettles | lib/class-core.php:48-83 | After a call that sets the memo, a further call leaves it unchanged. |
| Core.PostPrimarySite | lib/class-core.php:118-132 | A primary site exists exactly for an existing post with a non-empty primary meta whose term exists and has a non-zero id, and it is that term. Assigned sites play no part. |
| Core.SitesForPost | lib/class-core.php:140-152 | An existing post with site terms gives those terms. A missing post, or `false` or an error from `get_the_terms`, gives an empty list. |
| Core.AllowedOnCurrentSite | lib/class-core.php:160-172 | A post is allowed exactly when one of its sites has the current site's id. An allowed post exists and has at least one site. |
| Core.NoSitesNotAllowed | lib/class-core.php:160-172 | A post with no assigned sites is not allowed on the current site. |
| Core.DefaultSite | lib/class-core.php:216-225 | A default site exists exactly when the `default` setting is an integer naming an existing term, and it is that term. |
| Core.DefaultNeedsInteger | lib/class-core.php:217-218 | A default stored as a string gives no default site. |
| Core.PostSite | lib/class-core.php:182-209 | Preferring the primary site with a primary site gives it. Preferring the current site on an allowed post gives the current site term. Without a primary site and not allowed, the result is the first assigned site, or else the default site. The memo only moves from unset to the resolved term. |
| Core.PostSiteSources | lib/class-core.php:182-209 | Every term returned is the primary site, or the current site where the post is allowed, or an assigned site, or the default site. |
| Core.PreferenceMattersOnlyForBoth | lib/class-core.php:184-197 | The preference changes nothing unless the post has a primary site and is allowed on the current site. |
| Core.AssignedBeforeDefault | lib/class-core.php:200-205 | Without a primary site and not allowed here, a post with sites gets its first site, never the default. |
| Core.DefaultFallback | lib/class-core.php:200-208 | A post with no sites and no primary site resolves to the default site under either preference. |
| Core.ThreeSiteScenario | lib/class-core.php:182-209 | For a post on the default, primary and current sites with the primary marked, preferring primary yields the primary term. Preferring current yields the current term and memoizes it. |
| Core.SiteOrDefault | lib/class-core.php:233-239 | The `?:` fallback yields a site exactly when the post site is found or a default site exists. |
| Core.RedirectFor | lib/class-core.php:231-249 | Only singular views redirect, always with status 301. A singular view redirects exactly when there is a post or default site and a current site whose names differ. The target is the permalink with every occurrence of the current name replaced by the post site's name. |
| Core.RedirectNamesPostSite | lib/class-core.php:246 | When the current name occurs in the permalink, the redirect target contains the post site's name. |
| Core.SubstituteHostNamesSite | lib/class-core.php:265-267 | After the substitution the URL contains the site name, if it already did or it contained the replaced host. |
| Core.SubstituteHostKeeps | lib/class-core.php:265-267 | A URL is left unchanged when the name is empty, already occurs, or the host does not occur. |
| Core.PostLinkFor | lib/class-core.php:259-269 | The post site is resolved preferring primary in the admin area and current elsewhere, with the default as fallback. The permalink is unchanged when that site has no name or its name already occurs. Otherwise every occurrence of the home host is replaced by the name. |
| Core.PostLinkNamesSite | lib/class-core.php:259-269 | A permalink that mentioned the home host, or already named the site, names the post's site after rewriting. |
| Core.PostLinkWithoutHomeHost | lib/class-core.php:265-267 | A permalink without the home host is returned unchanged. |
| Core.CanonicalUrl | lib/class-core.php:280-291 | Without a primary site the URL is unchanged. Otherwise the URL's own host is replaced by the primary site's name, unless that name already occurs. |
| Core.CanonicalUrlIgnoresRequest | lib/class-core.php:280-291 | Canonical URLs do not depend on the current request, only on the post and the site terms. |
| Core.CanonicalUrlNamesPrimary | lib/class-core.php:282-288 | A canonical URL that mentioned its own host names the post's primary site after rewriting. |
| Core.AdminUrl | lib/class-core.php:299-307 | Without a default site the URL is unchanged. Otherwise the home host is replaced by the default site's name, unless that name already occurs. |
| Core.AdminUrlNamesDefault | lib/class-core.php:302-304 | An admin URL that mentions the home host names the default site after rewriting. |
| Core.AdminRedirect | lib/class-core.php:313-328 | A redirect, always a 302, happens exactly when the request has a host and URI, is not AJAX, redirection is enabled, and a named default site does not occur in the host. The target is `esc_url_raw('http://' . name . uri)`. |
| Core.AdminRedirectSettles | lib/class-core.php:324 | A request already on the default site's host is not redirected again. |
| Core.Core.constructor | lib/class-core.php:21 | A new instance has no memoized site term. |
| Core.Core.GetCurrentSiteTerm | lib/class-core.php:48-83 | Returns what `CurrentSiteTerm` gives for the field's old value and updates the field to its memo. |
| Core.Core.IsPostAllowedOnCurrentSite | lib/class-core.php:160-172 | The loop over the post's sites returns true exactly when one has the current site's id, and the memo is left unchanged. |
| Core.Core.GetPostSite | lib/class-core.php:182-209 | The loop over the two checks in preference order, then the first site, then the default, returns what `PostSite` gives and leaves the memo as `PostSite` does. |
| Core.Core.Redirects | lib/class-core.php:231-249 | Returns the decision of `RedirectFor` and leaves the memo as `RedirectFor` does. |
| Core.Core.PostLink | lib/class-core.php:259-269 | Returns the link of `PostLinkFor` and leaves the memo as `PostLinkFor` does. |
| Cache.PurgeUrlsForTermDomain | lib/class-cache.php:32-58 | The result has at most one URL. A missing term or a link error gives none. With a non-empty site the URL is the site followed by the relative term link. Every URL returned is truthy. |
| Cache.Unique | lib/class-cache.php:111 | The result has no duplicates and exactly the values of the input. |
| Cache.UniqueOfDistinct | lib/class-cache.php:111 | A list without duplicates passes through unchanged. |
| Cache.UniquePrefix | lib/class-cache.php:111 | First occurrences are kept: the deduplicated list of `s + t` begins with the deduplicated `s`. |
| Cache.TermUrlsSound | lib/class-cache.php:105-107 | Every URL from a term list is the site followed by the relative link of one of the terms. |
| Cache.TermUrlsComplete | lib/class-cache.php:105-107 | Every linked term contributes its URL. |
| Cache.TaxonomyUrlsSound | lib/class-cache.php:100-108 | Every archive URL comes from the terms of one taxonomy. |
| Cache.TaxonomyUrlsComplete | lib/class-cache.php:100-108 | Every taxonomy contributes all of its URLs. |
| Cache.DomainUrlsSound | lib/class-cache.php:92-109 | Every added URL is a domain's post URL or one of its archive URLs. |
| Cache.DomainUrlsComplete | lib/class-cache.php:92-109 | Every domain contributes its post URL and all of its archive URLs. |
| Cache.NoTermsOnlyPostUrls | lib/class-cache.php:101-104 | When the post has no category or tag terms, only the post URLs are added, one per domain in order. |
| Cache.AppendTermUrls | lib/class-cache.php:105-107 | The term loop appends exactly the term list's URLs. |
| Cache.AppendArchiveUrls | lib/class-cache.php:100-108 | The taxonomy loop appends exactly the taxonomies' URLs and skips a taxonomy without terms. |
| Cache.CachePurgePostUrlsDomains | lib/class-cache.php:70-112 | A missing post or a post without site domains gives back the input. Otherwise the result is the input followed by every domain's post and archive URLs, deduplicated with first occurrences kept. A domain URL already in the input is not repeated. |
| Cache.PurgeListContents | lib/class-cache.php:92-111 | The purge list has no duplicates and keeps every input URL. It holds every domain's post URL and nothing that is not an input, post or archive URL. |
| Cache.ArchiveUrlsPurged | lib/class-cache.php:49-51 | Every linked category or tag term's archive URL is in the purge list on every domain. |
| Cache.ArchiveUrlShape | lib/class-cache.php:49-51 | Every archive URL is the domain's site prefix followed by a relative term link. |
| Templates.CurrentSlug | lib/class-templates.php:109 | The slug is the scalar `get_current_site_term('slug')` returns, with its memo. |
| Templates.Prefix | lib/class-templates.php:107-118 | With no slug the name is returned unchanged. With a null name the slug is returned. Otherwise the result starts with the slug and continues with `-` and the name. |
| Templates.PrefixOfKnownSite | lib/class-templates.php:109-117 | Once the current site is memoized, the prefix of a name is `{slug}-{name}`. |
| Templates.PrefixWithoutSite | lib/class-templates.php:109-112 | Off the registered sites, names are returned unprefixed and no memo is set. |
| Templates.TrailingSlashIt | lib/class-templates.php:82 | The subdirectory ends in exactly one slash. Before it comes a prefix of the original text, and every character dropped from the original is a slash or backslash. |
| Templates.BaseName | lib/class-templates.php:76-77 | Both theme directory prefixes are removed and then the last four characters are dropped, giving "" when four or fewer remain. |
| Templates.BaseNameInStylesheet | lib/class-templates.php:76-77 | `STYLESHEETPATH/<name>.php` has base name `<name>`. |
| Templates.Candidates | lib/class-templates.php:73-86 | The subdirectory candidate comes first, and only when a subdirectory is given. The prefixed base plus `.php` comes last. |
| Templates.TemplateFor | lib/class-templates.php:50-97 | A template outside `wp-content/themes/`, inside `themes/vip/plugins/`, disabled or invalid is returned unchanged. Otherwise the located candidate is returned, or the original template when none is found. |
| Templates.SiteTemplateCandidate | lib/class-templates.php:80-96 | On a known site with no subdirectory, the one candidate looked for is `{slug}-{base}.php`. |
| Templates.PrefixName | lib/class-templates.php:107-118 | Returns the prefix of `Prefix` through the `Core` instance and updates its memo accordingly. |
| Templates.TemplateIncludePrefix | lib/class-templates.php:50-97 | Building the candidate list by appending returns what `TemplateFor` gives and updates the `Core` memo accordingly. |
| WalkerPageArray.Pad | lib/class-walker-page-array.php:54 | The padding is three `&nbsp;` per depth level. |
| WalkerPageArray.PadDeeper | lib/class-walker-page-array.php:54 | One more level adds exactly three `&nbsp;`. |
| WalkerPageArray.EscapeRoundTrip | lib/class-walker-page-array.php:61 | Escaping quotes loses nothing: unescaping gives the title back. |
| WalkerPageArray.EscapedQuotesFollowBackslash | lib/class-walker-page-array.php:61 | Every quote in the escaped title follows a backslash. |
| WalkerPageArray.EscapeWithoutQuotes | lib/class-walker-page-array.php:61 | A title without quotes is written unchanged. |
| WalkerPageArray.TitleOf | lib/class-walker-page-array.php:56-60 | An empty title becomes `#<ID> (no title)`. Any other title is kept. |
| WalkerPageArray.Fragment | lib/class-walker-page-array.php:61 | The fragment starts with `"<ID>":"` and the padding, and ends with `",`. |
| WalkerPageArray.FragmentTitleReadsBack | lib/class-walker-page-array.php:61 | The title part of the fragment reads back as the shown title. |
| WalkerPageArray.StartEl | lib/class-walker-page-array.php:53-62 | The output keeps what it held and gains exactly the page's fragment. |
| Autoload.ClassFile | lib/autoload.php:15-26 | A file is loaded exactly when the name, after its leading backslashes, starts with `Split_Domain\`. The file is under `PATH/lib` and ends in `.php`. |
| Autoload.LeadingBackslashIgnored | lib/autoload.php:16 | A leading backslash makes no difference. |
| Autoload.OtherNamespaceLoadsNothing | lib/autoload.php:16-19 | A class `<ns>\\<rest>` whose first segment is not `Split_Domain` loads nothing, with or without a leading backslash. |
| Autoload.NormalizeQualified | lib/autoload.php:21 | The namespace is removed, underscores become hyphens and the name is lower-cased. |
| Autoload.TopLevelClass | lib/autoload.php:21-25 | `Split_Domain\<Name>` maps to `PATH/lib/class-<name>.php`. |
| Autoload.NestedClass | lib/autoload.php:21-25 | `Split_Domain\<Dir>\<Name>` maps to `PATH/lib/<dir>/class-<name>.php`. |

## Left out

- The alias registry, the hostname validator, `Core::alias_redirects`, `update_domain_aliases_cache`, `redirect_to_domain` and `is_post_allowed_on_site` are called by tests and wrappers. Their code is not part of this model.
- `lib/functions.php` is not modelled: it is one-line delegations to `Core` and filter registration.
- `lib/compat.php` is not modelled: it is hook wiring for two third-party plugins.
- `lib/class-site.php` and `lib/class-taxonomy.php` are not modelled: they register the taxonomy and its labels. `Settings::fields` is left out because it is the admin form.
- `add_action`/`add_filter` wiring, `_doing_it_wrong` logging and translations are left out because they are side effects with no bearing on results.
- Core.CurrentSiteTerm: a `WP_Term` has only `term_id`, `name` and `slug` here. Any other property reads as null.
- Core.Env: a registry entry is a map of scalars. A non-array option value is not modelled.
- Core.CanonicalUrl: the `permalinkHost` parameter stands for `parse_url($permalink, PHP_URL_HOST)`. It is an unconstrained input and is not checked against the permalink.
- Strings: PHP strings are byte strings, and the model works on characters. `substr($file, 0, -4)`, `strtolower` and `str_repeat` are exact only for single-byte text.
- Php.IntVal: `intval` of a string reads optional white space, a sign and decimal digits. Exponent and hexadecimal notations are not modelled, and neither is the saturation at `PHP_INT_MAX` and `PHP_INT_MIN`: the result is an unbounded integer.
- Cache.Unique: `array_unique` preserves the original array keys. The model keeps the order of the surviving values but renumbers them.
- Cache.PurgeContext: an error from `get_the_terms` is treated like `false`. PHP would iterate over the error object's properties instead.
- Cache.AppendArchiveUrls: the taxonomy and term loops of `cache_purge_post_urls_domains` are separate methods. They append to the list the outer loop passes in, so the result is the same.
- WalkerPageArray.StartEl: the depth is a natural number, because `str_repeat` rejects a negative count. The `$args` and `$id` parameters are unused by the source and left out.
- Templates.Theme: the filters, `validate_file` and `locate_template` are opaque functions. Their WordPress internals are not modelled.
- Redirect side effects (`wp_redirect` headers and `exit`) are returned as a decision value.
- Concurrency is not modelled. Each request is one sequential run over a snapshot of the options.

=== FILE: autoload.dfy ===
/**
 * The plugin's class autoloader (`Split_Domain\autoload`): the file a class
 * name is loaded from. The `require_once` becomes the returned path; a class
 * outside the plugin's namespace loads nothing.
 */
module Autoload {
  import opened Wrappers
  import opened Strings

  /** The namespace prefix the autoloader serves. */
  const Namespace: string := "Split_Domain\\"

  /** The file name part: namespace removed, underscores turned into hyphens, all lower case. */
  function Normalize(cls: string): string {
    Lower(ReplaceAll(ReplaceAll(cls, Namespace, ""), "_", "-"))
  }

  /**
   * `autoload($cls)`: leading backslashes dropped; nothing for a class outside
   * `Split_Domain\`; otherwise `PATH/lib[/<dirs>]/class-<last>.php`, where
   * the directories and the last segment come from splitting the normalised
   * name at backslashes.
   */
  function ClassFile(cls: string, path: string): (r: Option<string>)
    ensures r.Some? <==> StartsWith(TrimLeft(cls, {'\\'}), Namespace)
    ensures r.Some? ==> StartsWith(r.value, path + "/lib") && r.value[|r.value| - 4..] == ".php"
  {
    var c := TrimLeft(cls, {'\\'});
    if !StartsWith(c, Namespace) then None
    else
      var parts := Split(Normalize(c), '\\');
      var dirs := parts[..|parts| - 1];
      var last := parts[|parts| - 1];
      var dir := TrimRight("/lib/" + Join(dirs, "/"), {'/'});
      assert StartsWith(dir, "/lib") by {
        assert ("/lib/" + Join(dirs, "/"))[..4] == "/lib";
        TrimRightKeepsPrefix("/lib/" + Join(dirs, "/"), {'/'}, "/lib");
      }
      var file := path + dir + "/class-" + last + ".php";
      assert file[..|path + "/lib"|] == path + "/lib";
      Some(file)
  }

  /** Leading backslashes make no difference. */
  lemma LeadingBackslashIgnored(cls: string, path: string)
    ensures ClassFile("\\" + cls, path) == ClassFile(cls, path)
  {
    assert ("\\" + cls)[1..] == cls;
  }

  /**
   * A class of another namespace loads no file: one that, after its leading
   * backslashes, does not begin with `Split_Domain\`, such as `Symfony\X`
   * or `\Foo`.
   */
  lemma OtherNamespaceLoadsNothing(ns: string, rest: string, path: string)
    requires ns != [] && '\\' !in ns && ns != "Split_Domain"
    ensures ClassFile(ns + "\\" + rest, path) == None
    ensures ClassFile("\\" + ns + "\\" + rest, path) == None
  {
    var cls := ns + "\\" + rest;
    TrimLeftKeeps(cls, {'\\'});
    assert !StartsWith(cls, Namespace) by {
      if |ns| < |Namespace| - 1 {
        assert cls[|ns|] == '\\' && Namespace[|ns|] != '\\';
      } else if |ns| > |Namespace| - 1 {
        assert cls[|Namespace| - 1] == ns[|Namespace| - 1] != '\\';
      } else {
        assert cls[..|ns|] == ns && Namespace[..|ns|] == "Split_Domain";
      }
    }
    LeadingBackslashIgnored(cls, path);
    assert "\\" + ns + "\\" + rest == "\\" + cls;
  }

  /** A name without backslashes keeps none through the normalisation. */
  lemma NormalizeKeepsOutBackslash(name: string)
    requires '\\' !in name
    ensures '\\' !in Lower(ReplaceAll(name, "_", "-"))
  {
    ReplaceKeepsOut(name, "_", "-", '\\');
    LowerKeepsOut(ReplaceAll(name, "_", "-"), '\\');
  }

  /** Normalising `Split_Domain\<rest>`, where `rest` has no backslash, only touches `rest`. */
  lemma NormalizeQualified(rest: string)
    requires !Contains(rest, Namespace)
    ensures Normalize(Namespace + rest) == Lower(ReplaceAll(rest, "_", "-"))
  {
    ReplaceLeading(Namespace, rest, "");
    ReplaceAbsent(rest, Namespace, "");
    assert ReplaceAll(Namespace + rest, Namespace, "") == rest;
  }

  /** A name without backslashes cannot contain the namespace prefix. */
  lemma NoNamespaceInside(name: string)
    requires '\\' !in name
    ensures !Contains(name, Namespace)
  {
    if Contains(name, Namespace) {
      ContainsChar(name, Namespace, '\\');
    }
  }

  /**
   * An unfolding step for `TopLevelClass` and `NestedClass`: the file of a
   * qualified class, given how its normalised name splits.
   */
  lemma ClassFileOfParts(cls: string, path: string, dirs: seq<string>, last: string)
    requires cls != [] && cls[0] != '\\' && StartsWith(cls, Namespace)
    requires Split(Normalize(cls), '\\') == dirs + [last]
    ensures ClassFile(cls, path) == Some(path + TrimRight("/lib/" + Join(dirs, "/"), {'/'}) + "/class-" + last + ".php")
  {
    TrimLeftKeeps(cls, {'\\'});
    var parts := dirs + [last];
    assert parts[..|parts| - 1] == dirs;
  }

  /** The file name prefix in the top-level directory. */
  lemma ClassPrefix(path: string)
    ensures path + "/lib" + "/class-" == path + "/lib/class-"
  {
    assert "/lib" + "/class-" == "/lib/class-";
  }

  /** The top-level directory: `rtrim('/lib/', '/')`. */
  lemma LibDirectory()
    ensures TrimRight("/lib/", {'/'}) == "/lib"
  {
    var s := "/lib/";
    assert s[|s| - 1] == '/';
    assert s[..|s| - 1] == "/lib";
    TrimRightKeeps("/lib", {'/'});
  }

  /** A class directly in the namespace maps to `PATH/lib/class-<name>.php`. */
  lemma TopLevelClass(name: string, path: string)
    requires '\\' !in name
    ensures ClassFile(Namespace + name, path) == Some(path + "/lib/class-" + Lower(ReplaceAll(name, "_", "-")) + ".php")
  {
    var cls := Namespace + name;
    assert cls[..|Namespace|] == Namespace;
    NoNamespaceInside(name);
    NormalizeQualified(name);
    var lowered := Lower(ReplaceAll(name, "_", "-"));
    NormalizeKeepsOutBackslash(name);
    SplitWithoutSeparator(lowered, '\\');
    assert Split(Normalize(cls), '\\') == [] + [lowered];
    ClassFileOfParts(cls, path, [], lowered);
    LibDirectory();
    assert "/lib/" + Join([], "/") == "/lib/";
    ClassPrefix(path);
    assert path + "/lib" + "/class-" + lowered + ".php" == (path + "/lib" + "/class-") + lowered + ".php";
  }

  /** The normalised name of `<dir>\<name>` is the two normalised parts around a backslash. */
  lemma NormalizeAroundBackslash(dir: string, name: string)
    ensures Lower(ReplaceAll(dir + "\\" + name, "_", "-"))
            == Lower(ReplaceAll(dir, "_", "-")) + ['\\'] + Lower(ReplaceAll(name, "_", "-"))
  {
    ReplaceCharConcat(dir, "\\" + name, '_', "-");
    ReplaceCharConcat("\\", name, '_', "-");
    assert ReplaceAll("\\", "_", "-") == "\\";
    var d := ReplaceAll(dir, "_", "-");
    var n := ReplaceAll(name, "_", "-");
    assert dir + "\\" + name == dir + ("\\" + name);
    assert ReplaceAll(dir + "\\" + name, "_", "-") == d + "\\" + n;
    LowerConcat(d + "\\", n);
    LowerConcat(d, "\\");
    assert Lower("\\") == "\\";
  }

  /** `Split_Domain\<dir>\<name>` splits into the normalised directory and the normalised name. */
  lemma NestedSplit(dir: string, name: string)
    requires '\\' !in dir && '\\' !in name
    requires !Contains(dir + "\\" + name, Namespace)
    ensures Split(Normalize(Namespace + (dir + "\\" + name)), '\\') == [Lower(ReplaceAll(dir, "_", "-"))] + [Lower(ReplaceAll(name, "_", "-"))]
  {
    NormalizeQualified(dir + "\\" + name);
    NormalizeAroundBackslash(dir, name);
    NormalizeKeepsOutBackslash(dir);
    NormalizeKeepsOutBackslash(name);
    SplitAround(Lower(ReplaceAll(dir, "_", "-")), Lower(ReplaceAll(name, "_", "-")), '\\');
  }

  /** A directory name without slashes survives the `rtrim` of the directory part. */
  lemma NestedDirectory(dir: string)
    requires dir != [] && '/' !in dir
    ensures var d := Lower(ReplaceAll(dir, "_", "-"));
            TrimRight("/lib/" + Join([d], "/"), {'/'}) == "/lib/" + d
  {
    var d := Lower(ReplaceAll(dir, "_", "-"));
    ReplaceNonEmpty(dir, "_", "-");
    ReplaceKeepsOut(dir, "_", "-", '/');
    LowerKeepsOut(ReplaceAll(dir, "_", "-"), '/');
    assert d != [] && d[|d| - 1] != '/';
    TrimRightKeeps("/lib/" + d, {'/'});
  }

  /** A class in one sub-namespace maps to `PATH/lib/<dir>/class-<name>.php`. */
  lemma NestedClass(dir: string, name: string, path: string)
    requires dir != [] && '\\' !in dir && '\\' !in name && '/' !in dir
    requires !Contains(dir + "\\" + name, Namespace)
    ensures ClassFile(Namespace + dir + "\\" + name, path)
            == Some(path + "/lib/" + Lower(ReplaceAll(dir, "_", "-")) + "/class-" + Lower(ReplaceAll(name, "_", "-")) + ".php")
  {
    var cls := Namespace + (dir + "\\" + name);
    assert Namespace + dir + "\\" + name == cls;
    assert cls[..|Namespace|] == Namespace;
    var d := Lower(ReplaceAll(dir, "_", "-"));
    var n := Lower(ReplaceAll(name, "_", "-"));
    NestedSplit(dir, name);
    ClassFileOfParts(cls, path, [d], n);
    NestedDirectory(dir);
    assert path + ("/lib/" + d) + "/class-" + n + ".php" == path + "/lib/" + d + "/class-" + n + ".php";
  }
}

=== FILE: cache.dfy ===
/**
 * Cache purging across domains (class `Cache`): when a post's URLs are
 * purged, the post URL and its category and tag archive URLs are added for
 * every site domain the post is assigned to, and duplicates are dropped.
 *
 * WordPress lookups are inputs: the post's relative permalink, whether the
 * request is over SSL, the post's terms per taxonomy with the link
 * `get_term_link` gives each, and `wp_make_link_relative`.
 */
module Cache {
  import opened Wrappers
  import opened Php
  import Core

  /** What `get_term` and `get_term_link` give for one of the post's terms. */
  datatype TermLink =
    | MissingTerm         // `get_term` found nothing or failed
    | LinkError           // `get_term_link` returned an error
    | TermUrl(url: string) // the term's archive URL

  /** The WordPress facts `cache_purge_post_urls_domains` reads. */
  datatype PurgeContext = PurgeContext(
    relLink: string,                          // `wp_make_link_relative(get_permalink($post))`
    isSsl: bool,                              // `is_ssl()`
    taxonomyTerms: map<string, seq<TermLink>>, // `get_the_terms($post, $taxonomy)`; a missing key is `false`
    makeRelative: string -> string)           // `wp_make_link_relative`

  /** The taxonomies whose archives are purged. */
  const Taxonomies: seq<string> := ["category", "post_tag"]

  /** The protocol prefix the purge URLs get. */
  function Protocol(isSsl: bool): string {
    if isSsl then "https://" else "http://"
  }

  /** `$protocol . $domain->name`. */
  function SiteOf(domain: Term, ctx: PurgeContext): string {
    Protocol(ctx.isSsl) + domain.name
  }

  /**
   * `get_purge_urls_for_term_domain($term, $site)`: nothing for a missing
   * term or a link error; otherwise the term's link, made relative and put
   * behind `site` when `site` is not empty, kept only when it is truthy.
   */
  function PurgeUrlsForTermDomain(term: TermLink, site: string, makeRelative: string -> string): (r: seq<string>)
    ensures |r| <= 1
    ensures !term.TermUrl? ==> r == []
    ensures term.TermUrl? && !EmptyString(site) ==> r == [site + makeRelative(term.url)]
    ensures term.TermUrl? && EmptyString(site) && !EmptyString(term.url) ==> r == [term.url]
    ensures term.TermUrl? && EmptyString(site) && EmptyString(term.url) ==> r == []
    ensures forall u :: u in r ==> !EmptyString(u)
  {
    if !term.TermUrl? then []
    else
      var url := if !EmptyString(site) then site + makeRelative(term.url) else term.url;
      if !EmptyString(url) then [url] else []
  }

  /** The archive URLs of a list of terms on one site, in order. */
  function TermUrls(terms: seq<TermLink>, site: string, makeRelative: string -> string): seq<string> {
    if terms == [] then []
    else TermUrls(terms[..|terms| - 1], site, makeRelative) + PurgeUrlsForTermDomain(terms[|terms| - 1], site, makeRelative)
  }

  /** The archive URLs of one taxonomy on one site; a taxonomy without terms contributes nothing. */
  function TaxonomyTermUrls(taxonomy: string, ctx: PurgeContext, site: string): seq<string> {
    if taxonomy in ctx.taxonomyTerms then TermUrls(ctx.taxonomyTerms[taxonomy], site, ctx.makeRelative) else []
  }

  /** The archive URLs of a list of taxonomies on one site, in order. */
  function TaxonomyUrls(taxonomies: seq<string>, ctx: PurgeContext, site: string): seq<string> {
    if taxonomies == [] then []
    else TaxonomyUrls(taxonomies[..|taxonomies| - 1], ctx, site) + TaxonomyTermUrls(taxonomies[|taxonomies| - 1], ctx, site)
  }

  /** The URLs added for a list of domains: for each, the post URL then its archive URLs. */
  function DomainUrls(domains: seq<Term>, ctx: PurgeContext): seq<string> {
    if domains == [] then []
    else
      var site := SiteOf(domains[|domains| - 1], ctx);
      DomainUrls(domains[..|domains| - 1], ctx) + [site + ctx.relLink] + TaxonomyUrls(Taxonomies, ctx, site)
  }

  /** No value occurs twice. */
  predicate NoDuplicates(s: seq<string>) {
    forall i, j :: 0 <= i < j < |s| ==> s[i] != s[j]
  }

  /** `array_unique`: the first occurrence of every value, in order. */
  function Unique(s: seq<string>): (r: seq<string>)
    ensures NoDuplicates(r)
    ensures forall u :: u in r <==> u in s
    ensures |r| <= |s|
  {
    if s == [] then []
    else
      var d := Unique(s[..|s| - 1]);
      if s[|s| - 1] in d then d else d + [s[|s| - 1]]
  }

  /** A list without duplicates passes through `array_unique` unchanged. */
  lemma {:induction false} UniqueOfDistinct(s: seq<string>)
    requires NoDuplicates(s)
    ensures Unique(s) == s
  {
    if s != [] {
      var init := s[..|s| - 1];
      assert NoDuplicates(init);
      UniqueOfDistinct(init);
      assert forall i :: 0 <= i < |init| ==> init[i] == s[i];
      assert init + [s[|s| - 1]] == s;
    }
  }

  /** `array_unique` keeps the first occurrence: its result begins with the unique values of any prefix. */
  lemma {:induction false} UniquePrefix(s: seq<string>, t: seq<string>)
    ensures |Unique(s)| <= |Unique(s + t)|
    ensures Unique(s + t)[..|Unique(s)|] == Unique(s)
  {
    if t != [] {
      var init := t[..|t| - 1];
      assert (s + t)[..|s + t| - 1] == s + init;
      UniquePrefix(s, init);
      var d := Unique(s + init);
      assert Unique(s + t) == d || Unique(s + t) == d + [t[|t| - 1]];
    } else {
      assert s + t == s;
    }
  }

  /** Every archive URL in a term list's output is the site followed by a relative term link. */
  lemma {:induction false} TermUrlsSound(terms: seq<TermLink>, site: string, makeRelative: string -> string, u: string)
    requires !EmptyString(site)
    requires u in TermUrls(terms, site, makeRelative)
    ensures exists k :: 0 <= k < |terms| && terms[k].TermUrl? && u == site + makeRelative(terms[k].url)
  {
    var init := terms[..|terms| - 1];
    if u in TermUrls(init, site, makeRelative) {
      TermUrlsSound(init, site, makeRelative, u);
      var k :| 0 <= k < |init| && init[k].TermUrl? && u == site + makeRelative(init[k].url);
      assert terms[k] == init[k];
    } else {
      assert terms[|terms| - 1].TermUrl? && u == site + makeRelative(terms[|terms| - 1].url);
    }
  }

  /** Every linked term of a list has its archive URL in the list's output. */
  lemma {:induction false} TermUrlsComplete(terms: seq<TermLink>, site: string, makeRelative: string -> string, k: int)
    requires !EmptyString(site)
    requires 0 <= k < |terms| && terms[k].TermUrl?
    ensures site + makeRelative(terms[k].url) in TermUrls(terms, site, makeRelative)
  {
    var init := terms[..|terms| - 1];
    if k < |terms| - 1 {
      assert init[k] == terms[k];
      TermUrlsComplete(init, site, makeRelative, k);
    }
  }

  /** Every URL of a list of taxonomies comes from the terms of one of them. */
  lemma {:induction false} TaxonomyUrlsSound(taxonomies: seq<string>, ctx: PurgeContext, site: string, u: string)
    requires u in TaxonomyUrls(taxonomies, ctx, site)
    ensures exists t :: 0 <= t < |taxonomies| && u in TaxonomyTermUrls(taxonomies[t], ctx, site)
  {
    var init := taxonomies[..|taxonomies| - 1];
    if u in TaxonomyUrls(init, ctx, site) {
      TaxonomyUrlsSound(init, ctx, site, u);
      var t :| 0 <= t < |init| && u in TaxonomyTermUrls(init[t], ctx, site);
      assert taxonomies[t] == init[t];
    } else {
      assert u in TaxonomyTermUrls(taxonomies[|taxonomies| - 1], ctx, site);
    }
  }

  /** Every taxonomy of a list contributes all of its URLs. */
  lemma {:induction false} TaxonomyUrlsComplete(taxonomies: seq<string>, ctx: PurgeContext, site: string, t: int, u: string)
    requires 0 <= t < |taxonomies| && u in TaxonomyTermUrls(taxonomies[t], ctx, site)
    ensures u in TaxonomyUrls(taxonomies, ctx, site)
  {
    var init := taxonomies[..|taxonomies| - 1];
    if t < |taxonomies| - 1 {
      assert init[t] == taxonomies[t];
      TaxonomyUrlsComplete(init, ctx, site, t, u);
    }
  }

  /** Every added URL belongs to one of the domains: its post URL or one of its archive URLs. */
  lemma {:induction false} DomainUrlsSound(domains: seq<Term>, ctx: PurgeContext, u: string)
    requires u in DomainUrls(domains, ctx)
    ensures exists i :: 0 <= i < |domains| && (u == SiteOf(domains[i], ctx) + ctx.relLink
                                              || u in TaxonomyUrls(Taxonomies, ctx, SiteOf(domains[i], ctx)))
  {
    var init := domains[..|domains| - 1];
    if u in DomainUrls(init, ctx) {
      DomainUrlsSound(init, ctx, u);
      var i :| 0 <= i < |init| && (u == SiteOf(init[i], ctx) + ctx.relLink
                                   || u in TaxonomyUrls(Taxonomies, ctx, SiteOf(init[i], ctx)));
      assert domains[i] == init[i];
    }
  }

  /** Every domain gets its post URL and all of its archive URLs. */
  lemma {:induction false} DomainUrlsComplete(domains: seq<Term>, ctx: PurgeContext, i: int)
    requires 0 <= i < |domains|
    ensures SiteOf(domains[i], ctx) + ctx.relLink in DomainUrls(domains, ctx)
    ensures forall u :: u in TaxonomyUrls(Taxonomies, ctx, SiteOf(domains[i], ctx)) ==> u in DomainUrls(domains, ctx)
  {
    var init := domains[..|domains| - 1];
    if i < |domains| - 1 {
      assert init[i] == domains[i];
      DomainUrlsComplete(init, ctx, i);
    }
  }

  /** When the post has no category or tag terms, only the post URLs are added. */
  lemma {:induction false} NoTermsOnlyPostUrls(domains: seq<Term>, ctx: PurgeContext)
    requires forall t :: 0 <= t < |Taxonomies| ==> Taxonomies[t] !in ctx.taxonomyTerms
    ensures DomainUrls(domains, ctx) == seq(|domains|, i requires 0 <= i < |domains| => SiteOf(domains[i], ctx) + ctx.relLink)
  {
    if domains != [] {
      var init := domains[..|domains| - 1];
      NoTermsOnlyPostUrls(init, ctx);
      assert TaxonomyUrls(Taxonomies[..1], ctx, SiteOf(domains[|domains| - 1], ctx)) == [];
      assert Taxonomies[..|Taxonomies| - 1] == Taxonomies[..1];
    }
  }

  /** The innermost loop of `cache_purge_post_urls_domains`: each term's purge URLs merged into `urls`. */
  method AppendTermUrls(urls: seq<string>, terms: seq<TermLink>, site: string, makeRelative: string -> string) returns (r: seq<string>)
    ensures r == urls + TermUrls(terms, site, makeRelative)
  {
    r := urls;
    for k := 0 to |terms|
      invariant r == urls + TermUrls(terms[..k], site, makeRelative)
    {
      assert terms[..k + 1][..k] == terms[..k];
      r := r + PurgeUrlsForTermDomain(terms[k], site, makeRelative);
    }
    assert terms[..|terms|] == terms;
  }

  /**
   * The taxonomy loop of `cache_purge_post_urls_domains` for one site: a
   * taxonomy the post has no terms in is skipped.
   */
  method AppendArchiveUrls(urls: seq<string>, site: string, ctx: PurgeContext) returns (r: seq<string>)
    ensures r == urls + TaxonomyUrls(Taxonomies, ctx, site)
  {
    r := urls;
    for t := 0 to |Taxonomies|
      invariant r == urls + TaxonomyUrls(Taxonomies[..t], ctx, site)
    {
      var taxonomy := Taxonomies[t];
      assert Taxonomies[..t + 1][..t] == Taxonomies[..t];
      if taxonomy in ctx.taxonomyTerms {
        r := AppendTermUrls(r, ctx.taxonomyTerms[taxonomy], site, ctx.makeRelative);
      }
    }
    assert Taxonomies[..|Taxonomies|] == Taxonomies;
  }

  /**
   * `cache_purge_post_urls_domains($urls, $post_id)`: the input URLs when
   * the post does not exist or has no site domains; otherwise the input
   * URLs followed by every domain's post and archive URLs, duplicates removed.
   */
  method CachePurgePostUrlsDomains(urls: seq<string>, post: Option<Core.Post>, ctx: PurgeContext) returns (r: seq<string>)
    ensures post.None? || Core.SitesForPost(post) == [] ==> r == urls
    ensures post.Some? && Core.SitesForPost(post) != [] ==> r == Unique(urls + DomainUrls(Core.SitesForPost(post), ctx))
  {
    if post.None? {
      return urls;
    }
    var siteDomains := Core.SitesForPost(post);
    if siteDomains == [] {
      return urls;
    }
    var protocol := Protocol(ctx.isSsl);
    var acc := urls;
    for i := 0 to |siteDomains|
      invariant acc == urls + DomainUrls(siteDomains[..i], ctx)
    {
      var site := protocol + siteDomains[i].name;
      acc := acc + [site + ctx.relLink];
      acc := AppendArchiveUrls(acc, site, ctx);
      assert siteDomains[..i + 1][..i] == siteDomains[..i];
    }
    assert siteDomains[..|siteDomains|] == siteDomains;
    r := Unique(acc);
  }

  /**
   * The purge list keeps every input URL, has no duplicates, holds every
   * domain's post URL and every linked term's archive URL on every domain,
   * and holds nothing else.
   */
  lemma PurgeListContents(urls: seq<string>, domains: seq<Term>, ctx: PurgeContext)
    ensures var r := Unique(urls + DomainUrls(domains, ctx));
            && NoDuplicates(r)
            && (forall u :: u in urls ==> u in r)
            && (forall i :: 0 <= i < |domains| ==> SiteOf(domains[i], ctx) + ctx.relLink in r)
            && (forall u :: u in r ==> u in urls || (exists i :: 0 <= i < |domains| && (u == SiteOf(domains[i], ctx) + ctx.relLink
                                                                                        || u in TaxonomyUrls(Taxonomies, ctx, SiteOf(domains[i], ctx)))))
  {
    forall i | 0 <= i < |domains|
      ensures SiteOf(domains[i], ctx) + ctx.relLink in Unique(urls + DomainUrls(domains, ctx))
    {
      DomainUrlsComplete(domains, ctx, i);
    }
    forall u | u in Unique(urls + DomainUrls(domains, ctx)) && u !in urls
      ensures exists i :: 0 <= i < |domains| &&
                (u == SiteOf(domains[i], ctx) + ctx.relLink || u in TaxonomyUrls(Taxonomies, ctx, SiteOf(domains[i], ctx)))
    {
      DomainUrlsSound(domains, ctx, u);
    }
  }

  /** Every linked term of a purged taxonomy has its archive URL, on every domain, in the purge list. */
  lemma ArchiveUrlsPurged(urls: seq<string>, domains: seq<Term>, ctx: PurgeContext, i: int, t: int, k: int)
    requires 0 <= i < |domains| && 0 <= t < |Taxonomies| && Taxonomies[t] in ctx.taxonomyTerms
    requires 0 <= k < |ctx.taxonomyTerms[Taxonomies[t]]| && ctx.taxonomyTerms[Taxonomies[t]][k].TermUrl?
    ensures SiteOf(domains[i], ctx) + ctx.makeRelative(ctx.taxonomyTerms[Taxonomies[t]][k].url)
            in Unique(urls + DomainUrls(domains, ctx))
  {
    var site := SiteOf(domains[i], ctx);
    var terms := ctx.taxonomyTerms[Taxonomies[t]];
    TermUrlsComplete(terms, site, ctx.makeRelative, k);
    TaxonomyUrlsComplete(Taxonomies, ctx, site, t, site + ctx.makeRelative(terms[k].url));
    DomainUrlsComplete(domains, ctx, i);
  }

  /** Every archive URL in the purge list is a domain's site prefix followed by a relative term link. */
  lemma ArchiveUrlShape(domain: Term, ctx: PurgeContext, u: string)
    requires u in TaxonomyUrls(Taxonomies, ctx, SiteOf(domain, ctx))
    ensures exists t, k :: 0 <= t < |Taxonomies| && Taxonomies[t] in ctx.taxonomyTerms
                           && 0 <= k < |ctx.taxonomyTerms[Taxonomies[t]]| && ctx.taxonomyTerms[Taxonomies[t]][k].TermUrl?
                           && u == SiteOf(domain, ctx) + ctx.makeRelative(ctx.taxonomyTerms[Taxonomies[t]][k].url)
  {
    var site := SiteOf(domain, ctx);
    TaxonomyUrlsSound(Taxonomies, ctx, site, u);
    var t :| 0 <= t < |Taxonomies| && u in TaxonomyTermUrls(Taxonomies[t], ctx, site);
    assert site != [] && site[0] == 'h';
    TermUrlsSound(ctx.taxonomyTerms[Taxonomies[t]], site, ctx.makeRelative, u);
  }
}

=== FILE: core.dfy ===
/**
 * Site resolution and URL rewriting (class `Core`): which site term
 * the current request is on, which site a post belongs to, and the
 * redirect and link rewriting decisions that follow from them.
 *
 * WordPress state is an `Env` value; the memoized current-site term
 * (`Core::$site_term`) is a `Memo` that the specification functions take
 * and give back in a `Step`, and that the class `Core` holds in a field.
 */
module Core {
  import opened Wrappers
  import opened Strings
  import opened Php
  import Settings

  /** The WordPress state one request sees. */
  datatype Env = Env(
    registry: map<string, map<string, Scalar>>, // option `split_domain_sites`: host to cached site entry
    homeHost: string,                           // host part of `home_url()`
    siteTerms: map<int, Term>,                  // terms of the site taxonomy (`Site::instance()->name`) by term id, as `get_term` finds them
    settings: Option<map<string, Scalar>>,      // option `site_domain_settings`, None when not stored
    didInit: bool)                              // `did_action('init')`

  /**
   * A post, as `get_post` finds it: its `post_domains['primary']` meta value
   * (null when missing) and its site terms (`get_the_terms`, None for
   * `false` or an error).
   */
  datatype Post = Post(primaryMeta: Scalar, siteTerms: Option<seq<Term>>)

  /** What `get_current_site_from_cache` returns: null, false, or the cached entry. */
  datatype CacheLookup = NoSites | NotFound | Found(entry: map<string, Scalar>)

  /** `Core::$site_term`: not set yet, or set to a term or to `false`. */
  datatype Memo = Unset | Resolved(site: Option<Term>)

  /** A result together with the memo after computing it. */
  datatype Step<T> = Step(value: T, memo: Memo)

  /** `get_post_site`'s `$prefer`: 'primary', or anything else (which means the current site). */
  datatype Preference = PreferPrimary | PreferCurrent

  /** The two checks of `get_post_site`'s ordered loop. */
  datatype Check = CheckPrimary | CheckCurrent

  /** A redirect decision: none, or `wp_redirect($url, $status)` followed by `exit`. */
  datatype Redirect = NoRedirect | RedirectTo(url: string, status: int)

  /** The properties `get_current_site_term` may serve before `init`. */
  const EarlyProperties: set<string> := {"slug", "term_id", "name"}

  /** `get_term($id, 'site')`: the term, or nothing for id 0, a missing term or an error. */
  function TermById(id: int, env: Env): (r: Option<Term>)
    ensures r.Some? <==> id != 0 && id in env.siteTerms
  {
    if id != 0 && id in env.siteTerms then Some(env.siteTerms[id]) else None
  }

  /**
   * `get_current_site_from_cache`: nothing when the registry is empty; the
   * entry of the current host, with `name` set to the host, when it is there
   * and not empty; `false` otherwise.
   */
  function CurrentSiteFromCache(env: Env): (r: CacheLookup)
    ensures r.NoSites? <==> env.registry == map[]
    ensures r.Found? <==> env.registry != map[] && env.homeHost in env.registry && env.registry[env.homeHost] != map[]
    ensures r.Found? ==> r.entry.Keys == env.registry[env.homeHost].Keys + {"name"}
    ensures r.Found? ==> r.entry["name"] == SStr(env.homeHost)
    ensures r.Found? ==> forall k :: k in r.entry && k != "name" ==> r.entry[k] == env.registry[env.homeHost][k]
  {
    if env.registry == map[] then NoSites
    else if env.homeHost in env.registry && env.registry[env.homeHost] != map[] then
      Found(env.registry[env.homeHost]["name" := SStr(env.homeHost)])
    else NotFound
  }

  /** `$current_site[$key]`: a missing key, or any key of null or false, reads as null. */
  function CacheField(c: CacheLookup, key: string): Scalar {
    if c.Found? && key in c.entry then c.entry[key] else SNull
  }

  /** The term id the registry holds for the current host. */
  function CachedTermId(env: Env): Scalar {
    CacheField(CurrentSiteFromCache(env), "term_id")
  }

  /** The value `get_current_site_term` memoizes: the cached id's term, or false when it is missing or has an empty slug. */
  function ResolvedSiteTerm(env: Env): (r: Option<Term>)
    ensures r.Some? ==> !EmptyString(r.value.slug) && r == TermById(IntVal(CachedTermId(env)), env)
    ensures TermById(IntVal(CachedTermId(env)), env).Some? && !EmptyString(TermById(IntVal(CachedTermId(env)), env).value.slug)
            ==> r == TermById(IntVal(CachedTermId(env)), env)
  {
    var t := TermById(IntVal(CachedTermId(env)), env);
    if t.Some? && !EmptyString(t.value.slug) then t else None
  }

  /** PHP truthiness of `$property` (null, "" and "0" are false). */
  predicate PropertyTruthy(property: Option<string>) {
    property.Some? && !EmptyString(property.value)
  }

  /** The array key `$property` stands for; PHP reads `$array[null]` as `$array['']`. */
  function PropertyKey(property: Option<string>): string {
    if property.Some? then property.value else ""
  }

  /** What a set `site_term` yields: the property asked for, or the term (or false) itself. */
  function FromMemo(site: Option<Term>, property: Option<string>): Mixed {
    if site.Some? && PropertyTruthy(property) then Val(TermProp(site.value, property.value))
    else FromOption(site)
  }

  /**
   * `get_current_site_term($property)`. Once the memo is set the answer comes
   * from it alone. Otherwise: false before `init` for anything but an early
   * property; false without memoizing when the registry has no term id for
   * the current host; the cached property itself, without memoizing, when the
   * registry entry has it; else the term is looked up and memoized.
   */
  function CurrentSiteTerm(memo: Memo, property: Option<string>, env: Env): (r: Step<Mixed>)
    ensures memo.Resolved? ==> r == Step(FromMemo(memo.site, property), memo)
    ensures r.memo == memo || (memo == Unset && r.memo == Resolved(ResolvedSiteTerm(env)))
    ensures memo == Unset && !env.didInit && !(property.Some? && property.value in EarlyProperties)
            ==> r == Step(Val(SBool(false)), Unset)
    ensures memo == Unset && Empty(CachedTermId(env)) ==> r == Step(Val(SBool(false)), Unset)
    ensures memo == Unset && (env.didInit || (property.Some? && property.value in EarlyProperties)) && !Empty(CachedTermId(env))
            && !Empty(CacheField(CurrentSiteFromCache(env), PropertyKey(property)))
            ==> r == Step(Val(CacheField(CurrentSiteFromCache(env), PropertyKey(property))), Unset)
    ensures memo == Unset && (env.didInit || (property.Some? && property.value in EarlyProperties)) && !Empty(CachedTermId(env))
            && Empty(CacheField(CurrentSiteFromCache(env), PropertyKey(property)))
            ==> r == Step(FromMemo(ResolvedSiteTerm(env), property), Resolved(ResolvedSiteTerm(env)))
    ensures property == Some("term_id") ==> r.memo == memo
    ensures PropertyTruthy(property) ==> r.value.Val?
  {
    match memo
    case Resolved(site) => Step(FromMemo(site, property), memo)
    case Unset =>
      if (property.None? || property.value !in EarlyProperties) && !env.didInit then
        Step(Val(SBool(false)), Unset)
      else
        var currentSite := CurrentSiteFromCache(env);
        var cached := CacheField(currentSite, PropertyKey(property));
        if Empty(CacheField(currentSite, "term_id")) then Step(Val(SBool(false)), Unset)
        else if !Empty(cached) then Step(Val(cached), Unset)
        else
          var site := ResolvedSiteTerm(env);
          Step(FromMemo(site, property), Resolved(site))
  }

  /** Once a memo is set, the answer does not depend on the registry, the terms or anything else in the request. */
  lemma MemoizedIgnoresRequest(site: Option<Term>, property: Option<string>, env1: Env, env2: Env)
    ensures CurrentSiteTerm(Resolved(site), property, env1) == CurrentSiteTerm(Resolved(site), property, env2)
  {
  }

  /** Asking twice in a row: the second call leaves the memo where the first put it. */
  lemma MemoSettles(memo: Memo, p: Option<string>, q: Option<string>, env: Env)
    ensures var first := CurrentSiteTerm(memo, p, env);
            first.memo.Resolved? ==> CurrentSiteTerm(first.memo, q, env).memo == first.memo
  {
  }

  /** A registry that stores the term id as a decimal string still finds the term. */
  lemma CachedIdAsString(env: Env, t: Term)
    requires CachedTermId(env) == SStr(IntToString(t.termId))
    requires t.termId != 0 && t.termId in env.siteTerms && env.siteTerms[t.termId] == t && !EmptyString(t.slug)
    ensures ResolvedSiteTerm(env) == Some(t)
  {
    IntValOfDecimal(t.termId);
  }

  /** `get_post_primary_site`: the term of the post's primary meta when it exists and has a term id. */
  function PostPrimarySite(post: Option<Post>, env: Env): (r: Option<Term>)
    ensures r.Some? ==> post.Some? && !Empty(post.value.primaryMeta) && r.value.termId != 0
    ensures r.Some? ==> r == TermById(IntVal(post.value.primaryMeta), env)
    ensures post.Some? && !Empty(post.value.primaryMeta) && TermById(IntVal(post.value.primaryMeta), env).Some?
            && TermById(IntVal(post.value.primaryMeta), env).value.termId != 0
            ==> r == TermById(IntVal(post.value.primaryMeta), env)
  {
    if post.Some? && !Empty(post.value.primaryMeta) then
      var site := TermById(IntVal(post.value.primaryMeta), env);
      if site.Some? && site.value.termId != 0 then site else None
    else None
  }

  /** `get_sites_for_post`: the post's site terms, or none. */
  function SitesForPost(post: Option<Post>): (r: seq<Term>)
    ensures post.Some? && post.value.siteTerms.Some? ==> r == post.value.siteTerms.value
    ensures post.None? || post.value.siteTerms.None? ==> r == []
  {
    if post.Some? && post.value.siteTerms.Some? then post.value.siteTerms.value else []
  }

  /** `intval(get_current_site_term('term_id'))`. */
  function CurrentSiteId(memo: Memo, env: Env): int {
    MixedIntVal(CurrentSiteTerm(memo, Some("term_id"), env).value)
  }

  /** `is_post_allowed_on_current_site`: some site of the post has the current site's id. */
  function AllowedOnCurrentSite(memo: Memo, post: Option<Post>, env: Env): (r: bool)
    ensures r <==> exists t :: t in SitesForPost(post) && t.termId == CurrentSiteId(memo, env)
    ensures r ==> post.Some? && post.value.siteTerms.Some? && post.value.siteTerms.value != []
  {
    exists i :: 0 <= i < |SitesForPost(post)| && SitesForPost(post)[i].termId == CurrentSiteId(memo, env)
  }

  /** A post with no sites is not allowed on the current site. */
  lemma NoSitesNotAllowed(memo: Memo, post: Option<Post>, env: Env)
    requires SitesForPost(post) == []
    ensures !AllowedOnCurrentSite(memo, post, env)
  {
  }

  /** `get_default_site`: the term of the `default` setting, only when that setting is an integer and the term exists. */
  function DefaultSite(env: Env): (r: Option<Term>)
    ensures r.Some? <==> Settings.GetSetting(env.settings, SStr("default")).Value?
                         && Settings.GetSetting(env.settings, SStr("default")).value.SInt?
                         && TermById(Settings.GetSetting(env.settings, SStr("default")).value.i, env).Some?
    ensures r.Some? ==> r == TermById(Settings.GetSetting(env.settings, SStr("default")).value.i, env)
  {
    var setting := Settings.GetSetting(env.settings, SStr("default"));
    if setting.Value? && setting.value.SInt? then TermById(setting.value.i, env) else None
  }

  /** A default stored as a string does not count: the setting must be an integer. */
  lemma DefaultNeedsInteger(env: Env, s: string)
    requires env.settings.Some? && "default" in env.settings.value && env.settings.value["default"] == SStr(s)
    ensures DefaultSite(env) == None
  {
  }

  /** Whether a check of `get_post_site`'s loop passes on to the next one. */
  predicate Skipped(check: Check, memo: Memo, post: Option<Post>, env: Env) {
    match check
    case CheckPrimary => PostPrimarySite(post, env).None?
    case CheckCurrent => !AllowedOnCurrentSite(memo, post, env)
  }

  /**
   * `get_post_site($post, $prefer)`: the primary site and the current site,
   * in the order `prefer` gives; then the post's first site; then the
   * default site.
   */
  function PostSite(memo: Memo, post: Option<Post>, prefer: Preference, env: Env): (r: Step<Mixed>)
    ensures r.memo == memo || (memo == Unset && r.memo == Resolved(ResolvedSiteTerm(env)))
    ensures prefer == PreferPrimary && PostPrimarySite(post, env).Some?
            ==> r == Step(Obj(PostPrimarySite(post, env).value), memo)
    ensures prefer == PreferCurrent && AllowedOnCurrentSite(memo, post, env)
            ==> r == CurrentSiteTerm(memo, None, env)
    ensures PostPrimarySite(post, env).None? && !AllowedOnCurrentSite(memo, post, env) && SitesForPost(post) != []
            ==> r == Step(Obj(SitesForPost(post)[0]), memo)
    ensures PostPrimarySite(post, env).None? && !AllowedOnCurrentSite(memo, post, env) && SitesForPost(post) == []
            ==> r == Step(FromOption(DefaultSite(env)), memo)
  {
    var primary := PostPrimarySite(post, env);
    if prefer == PreferPrimary && primary.Some? then Step(Obj(primary.value), memo)
    else if AllowedOnCurrentSite(memo, post, env) then CurrentSiteTerm(memo, None, env)
    else if primary.Some? then Step(Obj(primary.value), memo)
    else if SitesForPost(post) != [] then Step(Obj(SitesForPost(post)[0]), memo)
    else Step(FromOption(DefaultSite(env)), memo)
  }

  /**
   * Every term `get_post_site` returns comes from one of the four sources:
   * the primary site, the current site (only when the post is allowed
   * there), one of the post's sites, or the default site.
   */
  lemma PostSiteSources(memo: Memo, post: Option<Post>, prefer: Preference, env: Env)
    ensures var r := PostSite(memo, post, prefer, env).value;
            r.Obj? ==> Some(r.term) == PostPrimarySite(post, env)
                       || (AllowedOnCurrentSite(memo, post, env) && r == CurrentSiteTerm(memo, None, env).value)
                       || r.term in SitesForPost(post)
                       || Some(r.term) == DefaultSite(env)
  {
  }

  /** The preference only matters for a post that has a primary site and is allowed on the current site. */
  lemma PreferenceMattersOnlyForBoth(memo: Memo, post: Option<Post>, env: Env)
    requires PostPrimarySite(post, env).None? || !AllowedOnCurrentSite(memo, post, env)
    ensures PostSite(memo, post, PreferPrimary, env) == PostSite(memo, post, PreferCurrent, env)
  {
  }

  /** A post that has sites of its own never falls through to the default site. */
  lemma AssignedBeforeDefault(memo: Memo, post: Option<Post>, prefer: Preference, env: Env)
    requires SitesForPost(post) != []
    requires PostPrimarySite(post, env).None? && !AllowedOnCurrentSite(memo, post, env)
    ensures PostSite(memo, post, prefer, env).value == Obj(SitesForPost(post)[0])
  {
  }

  /** A post with no sites and no primary site resolves to the default site, whatever the preference. */
  lemma DefaultFallback(memo: Memo, post: Option<Post>, prefer: Preference, env: Env)
    requires SitesForPost(post) == [] && PostPrimarySite(post, env).None?
    ensures PostSite(memo, post, prefer, env) == Step(FromOption(DefaultSite(env)), memo)
  {
    NoSitesNotAllowed(memo, post, env);
  }

  /**
   * A post assigned to the default, primary and current sites, with the
   * primary one marked: preferring the primary site gives it, preferring the
   * current site gives the current one, which the registry knows by host.
   */
  lemma ThreeSiteScenario()
    ensures var d := Term(1, "default-site.com", "default-site");
            var p := Term(2, "primary-site.com", "primary-site");
            var c := Term(3, "example.org", "current");
            var env := Env(map["example.org" := map["term_id" := SInt(3), "slug" := SStr("current")]],
                           "example.org", map[1 := d, 2 := p, 3 := c], Some(map["default" := SInt(1)]), true);
            var post := Some(Post(SInt(2), Some([d, p, c])));
            && PostSite(Unset, post, PreferPrimary, env).value == Obj(p)
            && PostSite(Unset, post, PreferCurrent, env) == Step(Obj(c), Resolved(Some(c)))
  {
    var d := Term(1, "default-site.com", "default-site");
    var p := Term(2, "primary-site.com", "primary-site");
    var c := Term(3, "example.org", "current");
    var env := Env(map["example.org" := map["term_id" := SInt(3), "slug" := SStr("current")]],
                   "example.org", map[1 := d, 2 := p, 3 := c], Some(map["default" := SInt(1)]), true);
    var post := Some(Post(SInt(2), Some([d, p, c])));
    var entry := map["term_id" := SInt(3), "slug" := SStr("current")];
    assert env.registry["example.org"] == entry && "term_id" in entry;
    assert CurrentSiteFromCache(env) == Found(entry["name" := SStr("example.org")]);
    assert "term_id" != "name" && "" != "name" && "" !in entry;
    assert CachedTermId(env) == SInt(3);
    assert CacheField(CurrentSiteFromCache(env), "") == SNull;
    assert CurrentSiteId(Unset, env) == 3;
    assert SitesForPost(post)[2].termId == 3;
    assert ResolvedSiteTerm(env) == Some(c);
  }

  /** `$post_site ?: get_default_site()`. */
  function SiteOrDefault(site: Mixed, env: Env): (r: Mixed)
    ensures Truthy(r) <==> Truthy(site) || DefaultSite(env).Some?
  {
    if Truthy(site) then site else FromOption(DefaultSite(env))
  }

  /** `$site->name`: the term's name, null for anything else. */
  function NameOf(site: Mixed): Scalar {
    Prop(site, "name")
  }

  /**
   * `redirects`: on a singular view, the post's site (preferring the current
   * one, else the default) is compared with the current site by name; when
   * both exist and differ, a 301 goes to the permalink with every occurrence
   * of the current name replaced by the post site's name.
   */
  function RedirectFor(memo: Memo, isSingular: bool, post: Option<Post>, permalink: string, env: Env): (r: Step<Redirect>)
    ensures r.memo == memo || (memo == Unset && r.memo == Resolved(ResolvedSiteTerm(env)))
    ensures !isSingular ==> r == Step(NoRedirect, memo)
    ensures r.value.RedirectTo? ==> r.value.status == 301
    ensures r.value.RedirectTo? ==>
              var ps := PostSite(memo, post, PreferCurrent, env);
              var postSite := SiteOrDefault(ps.value, env);
              var current := CurrentSiteTerm(ps.memo, None, env).value;
              isSingular && Truthy(postSite) && Truthy(current) && NameOf(postSite) != NameOf(current)
              && r.value.url == ReplaceAll(permalink, ToStr(NameOf(current)), ToStr(NameOf(postSite)))
    ensures var ps := PostSite(memo, post, PreferCurrent, env);
            var postSite := SiteOrDefault(ps.value, env);
            var current := CurrentSiteTerm(ps.memo, None, env).value;
            isSingular && Truthy(postSite) && Truthy(current) && NameOf(postSite) != NameOf(current)
            ==> r.value == RedirectTo(ReplaceAll(permalink, ToStr(NameOf(current)), ToStr(NameOf(postSite))), 301)
  {
    if !isSingular then Step(NoRedirect, memo)
    else
      var ps := PostSite(memo, post, PreferCurrent, env);
      var postSite := SiteOrDefault(ps.value, env);
      if !Truthy(postSite) then Step(NoRedirect, ps.memo)
      else
        var current := CurrentSiteTerm(ps.memo, None, env);
        if !Truthy(current.value) || NameOf(postSite) == NameOf(current.value) then Step(NoRedirect, current.memo)
        else Step(RedirectTo(ReplaceAll(permalink, ToStr(NameOf(current.value)), ToStr(NameOf(postSite))), 301), current.memo)
  }

  /**
   * A redirect leads to the post's site: when the current site's name occurs
   * in the permalink, the redirect target names the post's site.
   */
  lemma RedirectNamesPostSite(memo: Memo, post: Option<Post>, permalink: string, env: Env)
    requires RedirectFor(memo, true, post, permalink, env).value.RedirectTo?
    requires var ps := PostSite(memo, post, PreferCurrent, env);
             var current := CurrentSiteTerm(ps.memo, None, env).value;
             ToStr(NameOf(current)) != [] && Contains(permalink, ToStr(NameOf(current)))
    ensures var ps := PostSite(memo, post, PreferCurrent, env);
            Contains(RedirectFor(memo, true, post, permalink, env).value.url, ToStr(NameOf(SiteOrDefault(ps.value, env))))
  {
    var ps := PostSite(memo, post, PreferCurrent, env);
    var current := CurrentSiteTerm(ps.memo, None, env).value;
    ReplaceIntroduces(permalink, ToStr(NameOf(current)), ToStr(NameOf(SiteOrDefault(ps.value, env))));
  }

  /** The host substitution shared by `post_link`, `canonical_url` and `admin_url`. */
  function SubstituteHost(url: string, name: Scalar, host: string): string {
    if !Empty(name) && !Contains(url, ToStr(name)) then ReplaceAll(url, host, ToStr(name)) else url
  }

  /**
   * After the substitution the URL names the site, provided it already did
   * or it mentioned the host being replaced.
   */
  lemma {:induction false} SubstituteHostNamesSite(url: string, name: Scalar, host: string)
    requires !Empty(name)
    requires Contains(url, ToStr(name)) || (host != [] && Contains(url, host))
    ensures Contains(SubstituteHost(url, name, host), ToStr(name))
  {
    if !Contains(url, ToStr(name)) {
      ReplaceIntroduces(url, host, ToStr(name));
    }
  }

  /** A URL that does not mention the host being replaced, or already names the site, is left alone. */
  lemma {:induction false} SubstituteHostKeeps(url: string, name: Scalar, host: string)
    requires Empty(name) || Contains(url, ToStr(name)) || !Contains(url, host)
    ensures SubstituteHost(url, name, host) == url
  {
    if !Empty(name) && !Contains(url, ToStr(name)) {
      ReplaceAbsent(url, host, ToStr(name));
    }
  }

  /**
   * `post_link`: the post's site (preferring the primary one in the admin
   * area and the current one elsewhere, else the default) replaces the home
   * host, unless it has no name or its name already occurs in the permalink.
   */
  function PostLinkFor(memo: Memo, permalink: string, post: Option<Post>, isAdmin: bool, env: Env): (r: Step<string>)
    ensures var ps := PostSite(memo, post, if isAdmin then PreferPrimary else PreferCurrent, env);
            var name := NameOf(SiteOrDefault(ps.value, env));
            && r.memo == ps.memo
            && (Empty(name) || Contains(permalink, ToStr(name)) ==> r.value == permalink)
            && (!Empty(name) && !Contains(permalink, ToStr(name)) ==> r.value == ReplaceAll(permalink, env.homeHost, ToStr(name)))
  {
    var ps := PostSite(memo, post, if isAdmin then PreferPrimary else PreferCurrent, env);
    Step(SubstituteHost(permalink, NameOf(SiteOrDefault(ps.value, env)), env.homeHost), ps.memo)
  }

  /**
   * The rewritten permalink names the post's site whenever the permalink
   * mentioned the home host or already named the site.
   */
  lemma PostLinkNamesSite(memo: Memo, permalink: string, post: Option<Post>, isAdmin: bool, env: Env)
    requires var ps := PostSite(memo, post, if isAdmin then PreferPrimary else PreferCurrent, env);
             var name := NameOf(SiteOrDefault(ps.value, env));
             !Empty(name) && (Contains(permalink, ToStr(name)) || (env.homeHost != [] && Contains(permalink, env.homeHost)))
    ensures var ps := PostSite(memo, post, if isAdmin then PreferPrimary else PreferCurrent, env);
            Contains(PostLinkFor(memo, permalink, post, isAdmin, env).value, ToStr(NameOf(SiteOrDefault(ps.value, env))))
  {
    var ps := PostSite(memo, post, if isAdmin then PreferPrimary else PreferCurrent, env);
    SubstituteHostNamesSite(permalink, NameOf(SiteOrDefault(ps.value, env)), env.homeHost);
  }

  /** A permalink that does not mention the home host comes back unchanged. */
  lemma PostLinkWithoutHomeHost(memo: Memo, permalink: string, post: Option<Post>, isAdmin: bool, env: Env)
    requires !Contains(permalink, env.homeHost)
    ensures PostLinkFor(memo, permalink, post, isAdmin, env).value == permalink
  {
    var ps := PostSite(memo, post, if isAdmin then PreferPrimary else PreferCurrent, env);
    SubstituteHostKeeps(permalink, NameOf(SiteOrDefault(ps.value, env)), env.homeHost);
  }

  /**
   * `canonical_url`: only the post's primary site is used; the URL's own
   * host (`permalinkHost`, what `parse_url` finds) is replaced by its name
   * unless that name already occurs; without a primary site nothing changes.
   */
  function CanonicalUrl(permalink: string, permalinkHost: string, post: Option<Post>, env: Env): (r: string)
    ensures PostPrimarySite(post, env).None? ==> r == permalink
    ensures PostPrimarySite(post, env).Some? ==> r == SubstituteHost(permalink, SStr(PostPrimarySite(post, env).value.name), permalinkHost)
  {
    var site := PostPrimarySite(post, env);
    if site.Some? then SubstituteHost(permalink, SStr(site.value.name), permalinkHost) else permalink
  }

  /** Canonical URLs do not depend on the current request: only the post and the site terms matter. */
  lemma CanonicalUrlIgnoresRequest(permalink: string, permalinkHost: string, post: Option<Post>, env1: Env, env2: Env)
    requires env1.siteTerms == env2.siteTerms
    ensures CanonicalUrl(permalink, permalinkHost, post, env1) == CanonicalUrl(permalink, permalinkHost, post, env2)
  {
  }

  /** A canonical URL of a post with a named primary site names that site, when it mentioned its own host. */
  lemma CanonicalUrlNamesPrimary(permalink: string, permalinkHost: string, post: Option<Post>, env: Env)
    requires PostPrimarySite(post, env).Some? && !EmptyString(PostPrimarySite(post, env).value.name)
    requires permalinkHost != [] && Contains(permalink, permalinkHost)
    ensures Contains(CanonicalUrl(permalink, permalinkHost, post, env), PostPrimarySite(post, env).value.name)
  {
    SubstituteHostNamesSite(permalink, SStr(PostPrimarySite(post, env).value.name), permalinkHost);
  }

  /** `admin_url`: the default site's name replaces the home host, unless it has no name or already occurs. */
  function AdminUrl(url: string, env: Env): (r: string)
    ensures DefaultSite(env).None? ==> r == url
    ensures DefaultSite(env).Some? ==> r == SubstituteHost(url, SStr(DefaultSite(env).value.name), env.homeHost)
  {
    SubstituteHost(url, NameOf(FromOption(DefaultSite(env))), env.homeHost)
  }

  /** Admin URLs point at the default site whenever they mention the home host. */
  lemma AdminUrlNamesDefault(url: string, env: Env)
    requires DefaultSite(env).Some? && !EmptyString(DefaultSite(env).value.name)
    requires env.homeHost != [] && Contains(url, env.homeHost)
    ensures Contains(AdminUrl(url, env), DefaultSite(env).value.name)
  {
    SubstituteHostNamesSite(url, SStr(DefaultSite(env).value.name), env.homeHost);
  }

  /** The request facts `admin_redirect` reads. */
  datatype AdminRequest = AdminRequest(
    httpHost: Option<string>,   // `$_SERVER['HTTP_HOST']`, None when unset
    requestUri: Option<string>, // `$_SERVER['REQUEST_URI']`, None when unset
    doingAjax: bool,            // `DOING_AJAX` defined and true
    redirectEnabled: bool)      // the `split_domain_redirect_admin_domain` filter's answer

  /**
   * `admin_redirect`: unless the request lacks a host or URI, is an AJAX
   * call or redirection is switched off, a request whose host does not
   * contain the default site's name is sent (302) to
   * `esc_url_raw('http://' . name . uri)`.
   */
  function AdminRedirect(req: AdminRequest, escUrlRaw: string -> string, env: Env): (r: Redirect)
    ensures r.RedirectTo? ==> r.status == 302
    ensures r.RedirectTo? ==>
              && req.httpHost.Some? && req.requestUri.Some? && !req.doingAjax && req.redirectEnabled
              && DefaultSite(env).Some? && !EmptyString(DefaultSite(env).value.name)
              && !Contains(req.httpHost.value, DefaultSite(env).value.name)
              && r.url == escUrlRaw("http://" + DefaultSite(env).value.name + req.requestUri.value)
    ensures req.httpHost.Some? && req.requestUri.Some? && !req.doingAjax && req.redirectEnabled
            && DefaultSite(env).Some? && !EmptyString(DefaultSite(env).value.name)
            && !Contains(req.httpHost.value, DefaultSite(env).value.name)
            ==> r.RedirectTo?
  {
    if req.httpHost.None? || req.requestUri.None? || req.doingAjax || !req.redirectEnabled then NoRedirect
    else
      var name := NameOf(FromOption(DefaultSite(env)));
      if !Empty(name) && !Contains(req.httpHost.value, ToStr(name)) then
        RedirectTo(escUrlRaw("http://" + ToStr(name) + req.requestUri.value), 302)
      else NoRedirect
  }

  /** A request already on the default site's host is never redirected again. */
  lemma AdminRedirectSettles(req: AdminRequest, escUrlRaw: string -> string, env: Env)
    requires DefaultSite(env).Some? && req.httpHost == Some(DefaultSite(env).value.name)
    ensures AdminRedirect(req, escUrlRaw, env) == NoRedirect
  {
    ContainsSelf(DefaultSite(env).value.name);
  }

  /** The plugin's `Core` singleton, holding the memoized current-site term. */
  class Core {
    var siteTerm: Memo

    constructor ()
      ensures siteTerm == Unset
    {
      siteTerm := Unset;
    }

    /** `get_current_site_term($property)`, memoizing into `siteTerm`. */
    method GetCurrentSiteTerm(property: Option<string>, env: Env) returns (r: Mixed)
      modifies this
      ensures r == CurrentSiteTerm(old(siteTerm), property, env).value
      ensures siteTerm == CurrentSiteTerm(old(siteTerm), property, env).memo
    {
      if siteTerm == Unset {
        if (property.None? || property.value !in EarlyProperties) && !env.didInit {
          return Val(SBool(false));
        }
        var currentSite := CurrentSiteFromCache(env);
        if Empty(CacheField(currentSite, "term_id")) {
          return Val(SBool(false));
        }
        var cached := CacheField(currentSite, PropertyKey(property));
        if !Empty(cached) {
          return Val(cached);
        }
        var term := TermById(IntVal(CacheField(currentSite, "term_id")), env);
        if term.None? || EmptyString(term.value.slug) {
          siteTerm := Resolved(None);
        } else {
          siteTerm := Resolved(term);
        }
      }
      if siteTerm.site.Some? && PropertyTruthy(property) {
        r := Val(TermProp(siteTerm.site.value, property.value));
      } else {
        r := FromOption(siteTerm.site);
      }
    }

    /** `is_post_allowed_on_current_site`: a search of the post's sites for the current site's id. */
    method IsPostAllowedOnCurrentSite(post: Option<Post>, env: Env) returns (allowed: bool)
      modifies this
      ensures allowed == AllowedOnCurrentSite(old(siteTerm), post, env)
      ensures siteTerm == old(siteTerm)
    {
      var sites := SitesForPost(post);
      var current := GetCurrentSiteTerm(Some("term_id"), env);
      var currentSiteId := MixedIntVal(current);
      for i := 0 to |sites|
        invariant forall j :: 0 <= j < i ==> sites[j].termId != currentSiteId
      {
        if sites[i].termId == currentSiteId {
          return true;
        }
      }
      return false;
    }

    /** `get_post_site($post, $prefer)`: the ordered checks, then the first site, then the default. */
    method GetPostSite(post: Option<Post>, prefer: Preference, env: Env) returns (site: Mixed)
      modifies this
      ensures site == PostSite(old(siteTerm), post, prefer, env).value
      ensures siteTerm == PostSite(old(siteTerm), post, prefer, env).memo
    {
      var order := if prefer == PreferPrimary then [CheckPrimary, CheckCurrent] else [CheckCurrent, CheckPrimary];
      for i := 0 to |order|
        invariant siteTerm == old(siteTerm)
        invariant forall j :: 0 <= j < i ==> Skipped(order[j], old(siteTerm), post, env)
      {
        if order[i] == CheckPrimary {
          var primary := PostPrimarySite(post, env);
          if primary.Some? {
            assert i == 1 ==> Skipped(order[0], old(siteTerm), post, env);
            return Obj(primary.value);
          }
        } else {
          var allowed := IsPostAllowedOnCurrentSite(post, env);
          if allowed {
            assert i == 1 ==> Skipped(order[0], old(siteTerm), post, env);
            site := GetCurrentSiteTerm(None, env);
            return;
          }
        }
      }
      assert Skipped(order[0], old(siteTerm), post, env) && Skipped(order[1], old(siteTerm), post, env);
      var sites := SitesForPost(post);
      if sites != [] {
        return Obj(sites[0]);
      }
      site := FromOption(DefaultSite(env));
    }

    /** `redirects`: the redirect decision for the current view. */
    method Redirects(isSingular: bool, post: Option<Post>, permalink: string, env: Env) returns (d: Redirect)
      modifies this
      ensures d == RedirectFor(old(siteTerm), isSingular, post, permalink, env).value
      ensures siteTerm == RedirectFor(old(siteTerm), isSingular, post, permalink, env).memo
    {
      if !isSingular {
        return NoRedirect;
      }
      var postSite := GetPostSite(post, PreferCurrent, env);
      if !Truthy(postSite) {
        postSite := FromOption(DefaultSite(env));
        if !Truthy(postSite) {
          return NoRedirect;
        }
      }
      var currentSite := GetCurrentSiteTerm(None, env);
      if !Truthy(currentSite) || NameOf(postSite) == NameOf(currentSite) {
        return NoRedirect;
      }
      d := RedirectTo(ReplaceAll(permalink, ToStr(NameOf(currentSite)), ToStr(NameOf(postSite))), 301);
    }

    /** `post_link($permalink, $post)`. */
    method PostLink(permalink: string, post: Option<Post>, isAdmin: bool, env: Env) returns (url: string)
      modifies this
      ensures url == PostLinkFor(old(siteTerm), permalink, post, isAdmin, env).value
      ensures siteTerm == PostLinkFor(old(siteTerm), permalink, post, isAdmin, env).memo
    {
      var postSite := GetPostSite(post, if isAdmin then PreferPrimary else PreferCurrent, env);
      if !Truthy(postSite) {
        postSite := FromOption(DefaultSite(env));
      }
      url := permalink;
      var name := NameOf(postSite);
      if !Empty(name) && !Contains(permalink, ToStr(name)) {
        url := ReplaceAll(permalink, env.homeHost, ToStr(name));
      }
    }
  }
}

=== FILE: php.dfy ===
/**
 * The PHP and WordPress values the plugin passes around: scalars, the
 * `WP_Term` objects of the site taxonomy (`Site::instance()->name`), and the "mixed" results
 * of functions that return either a term object or a scalar such as
 * `false`. PHP's `empty()`, truthiness, `(string)` and `intval()` are
 * written out here because the plugin's branches depend on them.
 */
module Php {
  import opened Wrappers
  import opened Strings

  /** A PHP scalar: null, a boolean, an integer or a string. */
  datatype Scalar = SNull | SBool(b: bool) | SInt(i: int) | SStr(s: string)

  /** A `WP_Term` of the site taxonomy: its id, its name (the host) and its slug. */
  datatype Term = Term(termId: int, name: string, slug: string)

  /** A value that is either a scalar or a term object. */
  datatype Mixed = Val(v: Scalar) | Obj(term: Term)

  /** PHP `empty()` of a string: the empty string and "0". */
  predicate EmptyString(s: string) {
    s == "" || s == "0"
  }

  /** PHP `empty()` of a scalar. */
  predicate Empty(v: Scalar) {
    match v
    case SNull => true
    case SBool(b) => !b
    case SInt(i) => i == 0
    case SStr(s) => EmptyString(s)
  }

  /** PHP truthiness (`if ($m)`): every object is truthy, a scalar is truthy when it is not empty. */
  predicate Truthy(m: Mixed) {
    m.Obj? || !Empty(m.v)
  }

  /** PHP `(string)` of a scalar. */
  function ToStr(v: Scalar): string {
    match v
    case SNull => ""
    case SBool(b) => if b then "1" else ""
    case SInt(i) => IntToString(i)
    case SStr(s) => s
  }

  /** PHP `intval()` of a scalar. */
  function IntVal(v: Scalar): int {
    match v
    case SNull => 0
    case SBool(b) => if b then 1 else 0
    case SInt(i) => i
    case SStr(s) => ParseInt(s)
  }

  /** PHP `intval()` of a term object or scalar (an object reads as 1). */
  function MixedIntVal(m: Mixed): int {
    match m
    case Obj(_) => 1
    case Val(v) => IntVal(v)
  }

  /** `$term->$property` for the properties the plugin reads; any other property is unset and reads as null. */
  function TermProp(t: Term, property: string): Scalar {
    if property == "term_id" then SInt(t.termId)
    else if property == "name" then SStr(t.name)
    else if property == "slug" then SStr(t.slug)
    else SNull
  }

  /** `$m->$property`: null on anything that is not an object. */
  function Prop(m: Mixed, property: string): Scalar {
    match m
    case Obj(t) => TermProp(t, property)
    case Val(_) => SNull
  }

  /** A term lookup as PHP returns it: the term object, or `false`. */
  function FromOption(t: Option<Term>): (m: Mixed)
    ensures Truthy(m) <==> t.Some?
  {
    match t
    case Some(term) => Obj(term)
    case None => Val(SBool(false))
  }

  /** An id stored as a decimal string reads back as the same id. */
  lemma IntValOfDecimal(i: int)
    ensures IntVal(SStr(IntToString(i))) == i
  {
    ParseIntToString(i);
  }
}

=== FILE: settings.dfy ===
/**
 * The plugin's settings: the `site_domain_settings` option, read whole or
 * one key at a time (`Settings::get_setting`). The option is passed in as
 * the value `get_option` finds, `None` when it is not stored.
 */
module Settings {
  import opened Wrappers
  import opened Php

  /** What `get_setting` returns: the whole settings array, or one value (PHP `false` when the key is not set). */
  datatype SettingResult = All(settings: map<string, Scalar>) | Value(value: Scalar)

  /** The settings array: the stored option, or the empty array `get_option` falls back to. */
  function Stored(option: Option<map<string, Scalar>>): map<string, Scalar> {
    option.GetOr(map[])
  }

  /**
   * `get_setting($key)`: with no key (null, "" or "0") the whole array;
   * with a key that is set (present and not null) its value; otherwise `false`.
   */
  function GetSetting(option: Option<map<string, Scalar>>, key: Scalar): (r: SettingResult)
    ensures Empty(key) <==> r.All?
    ensures r.All? ==> r.settings == Stored(option)
    ensures r.Value? && r.value != SBool(false) ==> ToStr(key) in Stored(option) && Stored(option)[ToStr(key)] == r.value
    ensures !Empty(key) && ToStr(key) in Stored(option) && Stored(option)[ToStr(key)] != SNull ==> r == Value(Stored(option)[ToStr(key)])
    ensures r != Value(SNull)
  {
    var settings := Stored(option);
    if Empty(key) then All(settings)
    else if ToStr(key) in settings && settings[ToStr(key)] != SNull then Value(settings[ToStr(key)])
    else Value(SBool(false))
  }

  /** With the option absent, every key reads as `false`. */
  lemma AbsentOptionReadsFalse(key: string)
    requires !EmptyString(key)
    ensures GetSetting(None, SStr(key)) == Value(SBool(false))
  {
  }
}

=== FILE: strings.dfy ===
/**
 * The PHP string built-ins the plugin relies on, with PHP 8 semantics:
 * `strpos` as a substring test, `str_replace`, `ltrim`/`rtrim` with a
 * character list, ASCII `strtolower`, `str_repeat`, `explode`/`implode`,
 * decimal formatting of integers and the `(int)` cast of a string.
 */
module Strings {

  /** `s` begins with `prefix` (PHP: `strpos($s, $prefix) === 0`). */
  predicate StartsWith(s: string, prefix: string) {
    |prefix| <= |s| && s[..|prefix|] == prefix
  }

  /** `sub` occurs in `s` (PHP 8: `strpos($s, $sub) !== false`); the empty string occurs everywhere. */
  predicate Contains(s: string, sub: string)
    decreases |s|
  {
    StartsWith(s, sub) || (|s| > 0 && Contains(s[1..], sub))
  }

  /** `sub` occurs in `s` at position `i`. */
  predicate OccursAt(s: string, sub: string, i: int) {
    0 <= i && i + |sub| <= |s| && s[i..i + |sub|] == sub
  }

  /** `Contains` agrees with the positional definition of a substring, in both directions. */
  lemma {:induction false} ContainsIffOccurs(s: string, sub: string)
    ensures Contains(s, sub) <==> exists i :: OccursAt(s, sub, i)
    decreases |s|
  {
    if StartsWith(s, sub) {
      assert OccursAt(s, sub, 0);
    } else if |s| > 0 {
      ContainsIffOccurs(s[1..], sub);
      if Contains(s[1..], sub) {
        var i :| OccursAt(s[1..], sub, i);
        assert s[i + 1..i + 1 + |sub|] == s[1..][i..i + |sub|];
        assert OccursAt(s, sub, i + 1);
      } else {
        forall i | OccursAt(s, sub, i) ensures false {
          if i > 0 {
            assert s[1..][i - 1..i - 1 + |sub|] == s[i..i + |sub|];
            assert OccursAt(s[1..], sub, i - 1);
          }
        }
      }
    }
  }

  /** Whatever contains `sub` is at least as long as `sub`. */
  lemma {:induction false} ContainsLength(s: string, sub: string)
    requires Contains(s, sub)
    ensures |sub| <= |s|
    decreases |s|
  {
    if !StartsWith(s, sub) {
      ContainsLength(s[1..], sub);
    }
  }

  /** Every string contains itself. */
  lemma ContainsSelf(s: string)
    ensures Contains(s, s)
  {
    assert s[..|s|] == s;
  }

  /** Text in front of an occurrence does not hide it. */
  lemma {:induction false} ContainsAfterPrefix(p: string, s: string, sub: string)
    requires Contains(s, sub)
    ensures Contains(p + s, sub)
    decreases |p|
  {
    if p != [] {
      assert (p + s)[1..] == p[1..] + s;
      ContainsAfterPrefix(p[1..], s, sub);
    } else {
      assert p + s == s;
    }
  }

  /** An occurrence at the front of `s` survives anything appended after it. */
  lemma ContainsBeforeSuffix(s: string, t: string, sub: string)
    requires StartsWith(s, sub)
    ensures Contains(s + t, sub)
  {
    assert (s + t)[..|sub|] == s[..|sub|];
  }

  /**
   * PHP `str_replace($search, $replacement, $s)` for one search string:
   * scans left to right and replaces every non-overlapping occurrence;
   * an empty search leaves `s` as it is.
   */
  function ReplaceAll(s: string, search: string, replacement: string): string
    decreases |s|
  {
    if search == [] || |s| < |search| then s
    else if s[..|search|] == search then replacement + ReplaceAll(s[|search|..], search, replacement)
    else [s[0]] + ReplaceAll(s[1..], search, replacement)
  }

  /** Replacing a string that does not occur changes nothing. */
  lemma {:induction false} ReplaceAbsent(s: string, search: string, replacement: string)
    requires !Contains(s, search)
    ensures ReplaceAll(s, search, replacement) == s
    decreases |s|
  {
    if search != [] && |s| >= |search| {
      assert s[..|search|] != search;
      ReplaceAbsent(s[1..], search, replacement);
    }
  }

  /** Once a non-empty search string occurs, its replacement occurs in the result. */
  lemma {:induction false} ReplaceIntroduces(s: string, search: string, replacement: string)
    requires search != [] && Contains(s, search)
    ensures Contains(ReplaceAll(s, search, replacement), replacement)
    decreases |s|
  {
    ContainsLength(s, search);
    if s[..|search|] == search {
      ContainsBeforeSuffix(replacement, ReplaceAll(s[|search|..], search, replacement), replacement);
      assert replacement[..|replacement|] == replacement;
    } else {
      assert !StartsWith(s, search);
      ReplaceIntroduces(s[1..], search, replacement);
      ContainsAfterPrefix([s[0]], ReplaceAll(s[1..], search, replacement), replacement);
    }
  }

  /** A character found in neither the subject nor the replacement is not in the result. */
  lemma {:induction false} ReplaceKeepsOut(s: string, search: string, replacement: string, c: char)
    requires c !in s && c !in replacement
    ensures c !in ReplaceAll(s, search, replacement)
    decreases |s|
  {
    if search != [] && |s| >= |search| {
      if s[..|search|] == search {
        assert forall k :: 0 <= k < |s[|search|..]| ==> s[|search|..][k] == s[|search| + k];
        ReplaceKeepsOut(s[|search|..], search, replacement, c);
      } else {
        assert forall k :: 0 <= k < |s[1..]| ==> s[1..][k] == s[k + 1];
        ReplaceKeepsOut(s[1..], search, replacement, c);
      }
    }
  }

  /** A prefix that already starts with the search string is replaced by the replacement. */
  lemma ReplaceLeading(search: string, rest: string, replacement: string)
    requires search != []
    ensures ReplaceAll(search + rest, search, replacement) == replacement + ReplaceAll(rest, search, replacement)
  {
    assert (search + rest)[..|search|] == search;
    assert (search + rest)[|search|..] == rest;
  }

  /** Replacing with a non-empty string never empties a non-empty string. */
  lemma ReplaceNonEmpty(s: string, search: string, replacement: string)
    requires s != [] && replacement != []
    ensures ReplaceAll(s, search, replacement) != []
  {
  }

  /** Replacing a one-character search works piece by piece over a concatenation. */
  lemma {:induction false} ReplaceCharConcat(a: string, b: string, c: char, replacement: string)
    ensures ReplaceAll(a + b, [c], replacement) == ReplaceAll(a, [c], replacement) + ReplaceAll(b, [c], replacement)
    decreases |a|
  {
    if a == [] {
      assert a + b == b;
    } else {
      var ab := a + b;
      assert ab[..1] == [a[0]] && a[..1] == [a[0]];
      assert ab[1..] == a[1..] + b;
      ReplaceCharConcat(a[1..], b, c, replacement);
      var head := if a[0] == c then replacement else [a[0]];
      assert ReplaceAll(ab, [c], replacement) == head + ReplaceAll(a[1..] + b, [c], replacement);
      assert ReplaceAll(a, [c], replacement) == head + ReplaceAll(a[1..], [c], replacement);
    }
  }

  /** Every character of a substring occurs in the string. */
  lemma ContainsChar(s: string, sub: string, c: char)
    requires Contains(s, sub) && c in sub
    ensures c in s
  {
    ContainsIffOccurs(s, sub);
    var i :| OccursAt(s, sub, i);
    var k :| 0 <= k < |sub| && sub[k] == c;
    assert s[i + k] == sub[k];
  }

  /** PHP `ltrim($s, $chars)`: drops every leading character that is in `chars`. */
  function TrimLeft(s: string, chars: set<char>): (r: string)
    ensures |r| <= |s| && r == s[|s| - |r|..]
    ensures r == [] || r[0] !in chars
    ensures forall i :: 0 <= i < |s| - |r| ==> s[i] in chars
    decreases |s|
  {
    if s != [] && s[0] in chars then TrimLeft(s[1..], chars) else s
  }

  /** PHP `rtrim($s, $chars)`: drops every trailing character that is in `chars`. */
  function TrimRight(s: string, chars: set<char>): (r: string)
    ensures |r| <= |s| && r == s[..|r|]
    ensures r == [] || r[|r| - 1] !in chars
    ensures forall i :: |r| <= i < |s| ==> s[i] in chars
    decreases |s|
  {
    if s != [] && s[|s| - 1] in chars then TrimRight(s[..|s| - 1], chars) else s
  }

  /** A prefix ending in a kept character survives `rtrim`. */
  lemma TrimRightKeepsPrefix(s: string, chars: set<char>, p: string)
    requires StartsWith(s, p) && p != [] && p[|p| - 1] !in chars
    ensures StartsWith(TrimRight(s, chars), p)
  {
    var r := TrimRight(s, chars);
    assert s[|p| - 1] == p[|p| - 1];
    assert r[..|p|] == s[..|p|];
  }

  /** `rtrim` leaves a string alone when its last character is not trimmed. */
  lemma TrimRightKeeps(s: string, chars: set<char>)
    requires s == [] || s[|s| - 1] !in chars
    ensures TrimRight(s, chars) == s
  {
  }

  /** The trim leaves a string alone when its first character is not trimmed. */
  lemma TrimLeftKeeps(s: string, chars: set<char>)
    requires s == [] || s[0] !in chars
    ensures TrimLeft(s, chars) == s
  {
  }

  /** PHP `strtolower` on one character (ASCII letters only). */
  function LowerChar(c: char): char {
    if 'A' <= c <= 'Z' then (c as int + 32) as char else c
  }

  /** PHP 8 `strtolower`: lower-cases the ASCII letters and leaves every other character. */
  function Lower(s: string): (r: string)
    ensures |r| == |s| && forall i :: 0 <= i < |s| ==> r[i] == LowerChar(s[i])
  {
    seq(|s|, i requires 0 <= i < |s| => LowerChar(s[i]))
  }

  /** Lower-casing works piece by piece over a concatenation. */
  lemma LowerConcat(a: string, b: string)
    ensures Lower(a + b) == Lower(a) + Lower(b)
  {
  }

  /** A character that is not an upper-case letter stays out of the lower-cased string when it was not in it. */
  lemma LowerKeepsOut(s: string, c: char)
    requires c !in s && !('A' <= c <= 'Z') && !('a' <= c <= 'z')
    ensures c !in Lower(s)
  {
    forall i | 0 <= i < |s| ensures Lower(s)[i] != c {
      assert s[i] != c;
    }
  }

  /** PHP `str_repeat($s, $n)`. */
  function Repeat(s: string, n: nat): (r: string)
    ensures |r| == |s| * n
  {
    if n == 0 then [] else Repeat(s, n - 1) + s
  }

  /** Repeating `m + n` times is repeating `m` times, then `n` times. */
  lemma {:induction false} RepeatAdd(s: string, m: nat, n: nat)
    ensures Repeat(s, m + n) == Repeat(s, m) + Repeat(s, n)
    decreases n
  {
    if n > 0 {
      RepeatAdd(s, m, n - 1);
    }
  }

  /** PHP `explode($sep, $s)` for a one-character separator: the pieces between separators, always at least one. */
  function Split(s: string, sep: char): (r: seq<string>)
    ensures |r| >= 1
    ensures forall i :: 0 <= i < |r| ==> sep !in r[i]
    decreases |s|
  {
    if s == [] then [""]
    else
      var rest := Split(s[1..], sep);
      if s[0] == sep then [""] + rest
      else [[s[0]] + rest[0]] + rest[1..]
  }

  /** PHP `implode($sep, $parts)`. */
  function Join(parts: seq<string>, sep: string): string
    decreases |parts|
  {
    if |parts| == 0 then ""
    else if |parts| == 1 then parts[0]
    else parts[0] + sep + Join(parts[1..], sep)
  }

  /** A string without the separator is one piece. */
  lemma {:induction false} SplitWithoutSeparator(s: string, sep: char)
    requires sep !in s
    ensures Split(s, sep) == [s]
    decreases |s|
  {
    if s != [] {
      SplitWithoutSeparator(s[1..], sep);
      assert s == [s[0]] + s[1..];
    }
  }

  /** A string with one separator splits into the two pieces around it. */
  lemma {:induction false} SplitAround(x: string, y: string, sep: char)
    requires sep !in x && sep !in y
    ensures Split(x + [sep] + y, sep) == [x, y]
    decreases |x|
  {
    if x == [] {
      assert x + [sep] + y == [sep] + y;
      assert ([sep] + y)[1..] == y;
      SplitWithoutSeparator(y, sep);
    } else {
      SplitAround(x[1..], y, sep);
      assert (x + [sep] + y)[1..] == x[1..] + [sep] + y;
      assert [x[0]] + x[1..] == x;
    }
  }

  predicate IsDigit(c: char) {
    '0' <= c <= '9'
  }

  function DigitChar(d: nat): (c: char)
    requires d < 10
    ensures IsDigit(c)
  {
    ('0' as int + d) as char
  }

  function DigitValue(c: char): nat {
    if IsDigit(c) then c as int - '0' as int else 0
  }

  /** Decimal digits of `n`, most significant first, without leading zeros. */
  function NatToString(n: nat): (r: string)
    ensures |r| >= 1 && forall i :: 0 <= i < |r| ==> IsDigit(r[i])
    decreases n
  {
    if n < 10 then [DigitChar(n)] else NatToString(n / 10) + [DigitChar(n % 10)]
  }

  /** PHP `(string)` and `sprintf('%d')` of an integer. */
  function IntToString(i: int): string {
    if i < 0 then "-" + NatToString(-i) else NatToString(i)
  }

  /** The longest run of decimal digits at the front of `s`. */
  function LeadingDigits(s: string): (r: string)
    ensures |r| <= |s| && r == s[..|r|]
    ensures forall i :: 0 <= i < |r| ==> IsDigit(r[i])
    ensures |r| == |s| || !IsDigit(s[|r|])
    decreases |s|
  {
    if s == [] || !IsDigit(s[0]) then [] else [s[0]] + LeadingDigits(s[1..])
  }

  /** The number a string of decimal digits denotes. */
  function DigitsValue(d: string): nat
    decreases |d|
  {
    if d == [] then 0 else DigitsValue(d[..|d| - 1]) * 10 + DigitValue(d[|d| - 1])
  }

  /** The characters `(int)` skips before a number: space, tab, newline, carriage return, vertical tab, form feed. */
  predicate IsSpace(c: char) {
    c == ' ' || c == '\t' || c == '\n' || c == '\r' || c == '\U{B}' || c == '\U{C}'
  }

  /** The string after its leading white space. */
  function SkipSpace(s: string): string
    decreases |s|
  {
    if s != [] && IsSpace(s[0]) then SkipSpace(s[1..]) else s
  }

  /** The value of the optional sign and digits at the front of a string with no leading white space. */
  function SignedValue(t: string): int {
    if t != [] && t[0] == '-' then 0 - DigitsValue(LeadingDigits(t[1..])) as int
    else if t != [] && t[0] == '+' then DigitsValue(LeadingDigits(t[1..]))
    else DigitsValue(LeadingDigits(t))
  }

  /**
   * PHP `(int)` of a string: leading white space, an optional sign, then
   * the leading decimal digits; 0 when there are none.
   */
  function ParseInt(s: string): int {
    SignedValue(SkipSpace(s))
  }

  lemma {:induction false} DigitsValueOfNatToString(n: nat)
    ensures DigitsValue(NatToString(n)) == n
    decreases n
  {
    var d := NatToString(n);
    if n >= 10 {
      DigitsValueOfNatToString(n / 10);
      assert d[..|d| - 1] == NatToString(n / 10);
    }
  }

  lemma AllDigitsLead(s: string)
    requires forall i :: 0 <= i < |s| ==> IsDigit(s[i])
    ensures LeadingDigits(s) == s
  {
  }

  /** A non-empty run of digits parses as its value. */
  lemma ParseDigits(d: string)
    requires d != [] && forall i :: 0 <= i < |d| ==> IsDigit(d[i])
    ensures ParseInt(d) == DigitsValue(d)
  {
    assert SkipSpace(d) == d;
    AllDigitsLead(d);
  }

  /** A minus sign followed by a run of digits parses as the negated value. */
  lemma ParseNegativeDigits(d: string)
    requires d != [] && forall i :: 0 <= i < |d| ==> IsDigit(d[i])
    ensures ParseInt("-" + d) == 0 - DigitsValue(d)
  {
    var s := "-" + d;
    assert SkipSpace(s) == s;
    assert s[1..] == d;
    AllDigitsLead(d);
  }

  /** Reading back a formatted integer gives the integer. */
  lemma ParseIntToString(i: int)
    ensures ParseInt(IntToString(i)) == i
  {
    if i < 0 {
      DigitsValueOfNatToString(-i);
      ParseNegativeDigits(NatToString(-i));
    } else {
      DigitsValueOfNatToString(i);
      ParseDigits(NatToString(i));
    }
  }
}

=== FILE: templates.dfy ===
/**
 * Per-site templates (class `Templates`): the `{slug}-{name}` prefix of the
 * current site, and the `template_include` filter that looks for a
 * site-specific version of the template WordPress chose.
 *
 * The theme's directories, the two filters the plugin offers to other code,
 * `validate_file` and `locate_template` are inputs (`Theme`).
 */
module Templates {
  import opened Wrappers
  import opened Strings
  import opened Php
  import Core

  /** The theme and filter answers `template_include_prefix` consults. */
  datatype Theme = Theme(
    stylesheetPath: string,                // STYLESHEETPATH
    templatePath: string,                  // TEMPLATEPATH
    disabled: string -> bool,              // truthiness of the `switchboard_disable_templates` filter for a template
    validate: string -> int,               // `validate_file`: 0 for a valid path
    subdirectory: (Mixed, string) -> Scalar, // the `switchboard_template_subdirectory` filter, given the current site term and the template
    locate: seq<string> -> string)         // `locate_template`: the first candidate found, or ""

  /** `get_current_site_term('slug')`, a scalar because a property is asked for. */
  function CurrentSlug(memo: Core.Memo, env: Core.Env): (r: Core.Step<Scalar>)
    ensures r.memo == Core.CurrentSiteTerm(memo, Some("slug"), env).memo
    ensures Val(r.value) == Core.CurrentSiteTerm(memo, Some("slug"), env).value
  {
    var s := Core.CurrentSiteTerm(memo, Some("slug"), env);
    Core.Step(s.value.v, s.memo)
  }

  /**
   * `prefix($name)`: `name` itself when the current site has no slug; the
   * slug when `name` is null; otherwise `{slug}-{name}`.
   */
  function Prefix(memo: Core.Memo, name: Scalar, env: Core.Env): (r: Core.Step<Scalar>)
    ensures r.memo == CurrentSlug(memo, env).memo
    ensures Empty(CurrentSlug(memo, env).value) ==> r.value == name
    ensures !Empty(CurrentSlug(memo, env).value) && name == SNull ==> r.value == CurrentSlug(memo, env).value
    ensures !Empty(CurrentSlug(memo, env).value) && name != SNull
            ==> r.value.SStr? && StartsWith(r.value.s, ToStr(CurrentSlug(memo, env).value))
                && r.value.s[|ToStr(CurrentSlug(memo, env).value)|..] == "-" + ToStr(name)
  {
    var slug := CurrentSlug(memo, env);
    if Empty(slug.value) then Core.Step(name, slug.memo)
    else if name == SNull then Core.Step(slug.value, slug.memo)
    else Core.Step(SStr(ToStr(slug.value) + "-" + ToStr(name)), slug.memo)
  }

  /** Once the current site is known, the prefix is that site's slug, a hyphen and the name. */
  lemma PrefixOfKnownSite(site: Term, name: string, env: Core.Env)
    requires !EmptyString(site.slug)
    ensures Prefix(Core.Resolved(Some(site)), SStr(name), env) == Core.Step(SStr(site.slug + "-" + name), Core.Resolved(Some(site)))
  {
  }

  /** On a request that is not on any registered site, nothing is prefixed and the memo stays unset. */
  lemma PrefixWithoutSite(name: Scalar, env: Core.Env)
    requires Empty(Core.CachedTermId(env))
    ensures Prefix(Core.Unset, name, env) == Core.Step(name, Core.Unset)
  {
  }

  /** `trailingslashit`: trailing slashes and backslashes removed, then one slash added. */
  function TrailingSlashIt(s: string): (r: string)
    ensures |r| >= 1 && r[|r| - 1] == '/'
    ensures |r| == 1 || r[|r| - 2] !in {'/', '\\'}
    ensures StartsWith(s, r[..|r| - 1])
    ensures forall i :: |r| - 1 <= i < |s| ==> s[i] in {'/', '\\'}
  {
    TrimRight(s, {'/', '\\'}) + "/"
  }

  /** The template's base name: the theme directory prefixes removed, then the last four characters (`.php`) dropped. */
  function BaseName(template: string, theme: Theme): (r: string)
    ensures var file := ReplaceAll(ReplaceAll(template, theme.stylesheetPath + "/", ""), theme.templatePath + "/", "");
            (|file| > 4 ==> r == file[..|file| - 4]) && (|file| <= 4 ==> r == "")
  {
    var file := ReplaceAll(ReplaceAll(template, theme.stylesheetPath + "/", ""), theme.templatePath + "/", "");
    if |file| > 4 then file[..|file| - 4] else ""
  }

  /** A template inside the stylesheet directory has its own name, without `.php`, as base name. */
  lemma BaseNameInStylesheet(name: string, theme: Theme)
    requires name != []
    requires !Contains(name + ".php", theme.stylesheetPath + "/") && !Contains(name + ".php", theme.templatePath + "/")
    ensures BaseName(theme.stylesheetPath + "/" + name + ".php", theme) == name
  {
    var prefix := theme.stylesheetPath + "/";
    assert theme.stylesheetPath + "/" + name + ".php" == prefix + (name + ".php");
    ReplaceLeading(prefix, name + ".php", "");
    ReplaceAbsent(name + ".php", prefix, "");
    ReplaceAbsent(name + ".php", theme.templatePath + "/", "");
    assert ReplaceAll(theme.stylesheetPath + "/" + name + ".php", prefix, "") == name + ".php";
    assert (name + ".php")[..|name|] == name;
  }

  /** The templates to look for: the subdirectory one first when a subdirectory is given, then the prefixed one. */
  function Candidates(subdir: Scalar, base: string, prefixed: Scalar): (r: seq<string>)
    ensures |r| == (if Empty(subdir) then 1 else 2)
    ensures r[|r| - 1] == ToStr(prefixed) + ".php"
    ensures !Empty(subdir) ==> r[0] == TrailingSlashIt(ToStr(subdir)) + base + ".php"
  {
    (if !Empty(subdir) then [TrailingSlashIt(ToStr(subdir)) + base + ".php"] else []) + [ToStr(prefixed) + ".php"]
  }

  /** Whether `template_include_prefix` leaves a template alone before looking for candidates. */
  predicate Untouched(template: string, theme: Theme) {
    || !Contains(template, "wp-content/themes/")
    || Contains(template, "themes/vip/plugins/")
    || theme.disabled(template)
    || theme.validate(template) != 0
  }

  /**
   * `template_include_prefix($template)`: a template outside the themes
   * directory, inside a VIP plugin, with templates disabled, or invalid is
   * returned as it is; otherwise the candidates are located and the first
   * one found replaces the template.
   */
  function TemplateFor(memo: Core.Memo, template: string, theme: Theme, env: Core.Env): (r: Core.Step<string>)
    ensures Untouched(template, theme) ==> r == Core.Step(template, memo)
    ensures r.memo == memo || (memo == Core.Unset && r.memo == Core.Resolved(Core.ResolvedSiteTerm(env)))
    ensures !Untouched(template, theme) ==>
              var current := Core.CurrentSiteTerm(memo, None, env);
              var base := BaseName(template, theme);
              var prefixed := Prefix(current.memo, SStr(base), env);
              var located := theme.locate(Candidates(theme.subdirectory(current.value, template), base, prefixed.value));
              && r.memo == prefixed.memo
              && (EmptyString(located) ==> r.value == template)
              && (!EmptyString(located) ==> r.value == located)
  {
    if Untouched(template, theme) then Core.Step(template, memo)
    else
      var current := Core.CurrentSiteTerm(memo, None, env);
      var base := BaseName(template, theme);
      var prefixed := Prefix(current.memo, SStr(base), env);
      var located := theme.locate(Candidates(theme.subdirectory(current.value, template), base, prefixed.value));
      Core.Step(if !EmptyString(located) then located else template, prefixed.memo)
  }

  /**
   * On a site with a known slug and no subdirectory, the one candidate looked
   * for is `{slug}-{base}.php`.
   */
  lemma SiteTemplateCandidate(site: Term, template: string, theme: Theme, env: Core.Env)
    requires !Untouched(template, theme) && !EmptyString(site.slug)
    requires Empty(theme.subdirectory(Obj(site), template))
    ensures var found := theme.locate([site.slug + "-" + BaseName(template, theme) + ".php"]);
            TemplateFor(Core.Resolved(Some(site)), template, theme, env).value == if EmptyString(found) then template else found
  {
    var memo := Core.Resolved(Some(site));
    var base := BaseName(template, theme);
    assert Core.CurrentSiteTerm(memo, None, env).value == Obj(site);
    PrefixOfKnownSite(site, base, env);
    assert Candidates(theme.subdirectory(Obj(site), template), base, SStr(site.slug + "-" + base))
        == [site.slug + "-" + base + ".php"];
  }

  /** `Templates` works through the plugin's `Core` instance, whose memo it may set. */
  method PrefixName(core: Core.Core, name: Scalar, env: Core.Env) returns (r: Scalar)
    modifies core
    ensures r == Prefix(old(core.siteTerm), name, env).value
    ensures core.siteTerm == Prefix(old(core.siteTerm), name, env).memo
  {
    var slug := core.GetCurrentSiteTerm(Some("slug"), env);
    if !Truthy(slug) {
      return name;
    } else if name == SNull {
      return slug.v;
    } else {
      return SStr(ToStr(slug.v) + "-" + ToStr(name));
    }
  }

  /** `template_include_prefix($template)`, building the candidate list by appending. */
  method TemplateIncludePrefix(core: Core.Core, template: string, theme: Theme, env: Core.Env) returns (r: string)
    modifies core
    ensures r == TemplateFor(old(core.siteTerm), template, theme, env).value
    ensures core.siteTerm == TemplateFor(old(core.siteTerm), template, theme, env).memo
  {
    if !Contains(template, "wp-content/themes/") || Contains(template, "themes/vip/plugins/") || theme.disabled(template) {
      return template;
    }
    if theme.validate(template) != 0 {
      return template;
    }
    var templates: seq<string> := [];
    var file := ReplaceAll(ReplaceAll(template, theme.stylesheetPath + "/", ""), theme.templatePath + "/", "");
    var base := if |file| > 4 then file[..|file| - 4] else "";
    var current := core.GetCurrentSiteTerm(None, env);
    var siteSubdir := theme.subdirectory(current, template);
    if !Empty(siteSubdir) {
      templates := templates + [TrailingSlashIt(ToStr(siteSubdir)) + base + ".php"];
    }
    var prefixed := PrefixName(core, SStr(base), env);
    templates := templates + [ToStr(prefixed) + ".php"];
    assert templates == Candidates(siteSubdir, base, prefixed);
    var newTemplate := theme.locate(templates);
    if !EmptyString(newTemplate) {
      return newTemplate;
    } else {
      return template;
    }
  }
}

=== FILE: walker.dfy ===
/**
 * The page walker (class `Walker_Page_Array`) that serialises the page tree
 * for a select field: each page adds `"<ID>":"<padding><title>",` to the
 * output, with quotes in the title escaped.
 */
module WalkerPageArray {
  import opened Strings

  /** The fields of a page the walker reads: `ID` and `post_title`. */
  datatype Page = Page(id: int, title: string)

  /** `str_repeat('&nbsp;', $depth * 3)`: three non-breaking spaces per level. */
  function Pad(depth: nat): (r: string)
    ensures |r| == 18 * depth
  {
    Repeat("&nbsp;", depth * 3)
  }

  /** Going one level deeper adds three more non-breaking spaces. */
  lemma PadDeeper(depth: nat)
    ensures Pad(depth + 1) == Pad(depth) + "&nbsp;&nbsp;&nbsp;"
  {
    RepeatAdd("&nbsp;", depth * 3, 3);
    assert Repeat("&nbsp;", 3) == "&nbsp;&nbsp;&nbsp;" by {
      assert Repeat("&nbsp;", 0) == "";
    }
  }

  /** `addcslashes($s, '"')`: a backslash before every double quote, nothing else changed. */
  function EscapeQuotes(s: string): (r: string)
    ensures |r| >= |s|
    decreases |s|
  {
    if s == [] then []
    else (if s[0] == '"' then "\\\"" else [s[0]]) + EscapeQuotes(s[1..])
  }

  /** Reading an escaped title back: every backslash-quote pair becomes a quote. */
  function UnescapeQuotes(s: string): string
    decreases |s|
  {
    if s == [] then []
    else if |s| >= 2 && s[0] == '\\' && s[1] == '"' then "\"" + UnescapeQuotes(s[2..])
    else [s[0]] + UnescapeQuotes(s[1..])
  }

  /** An escaped string never begins with a bare quote. */
  lemma EscapeHead(s: string)
    requires s != []
    ensures EscapeQuotes(s)[0] != '"'
  {
  }

  /** Escaping loses nothing: the title can be read back exactly. */
  lemma {:induction false} EscapeRoundTrip(s: string)
    ensures UnescapeQuotes(EscapeQuotes(s)) == s
    decreases |s|
  {
    if s != [] {
      EscapeRoundTrip(s[1..]);
      var rest := EscapeQuotes(s[1..]);
      if s[0] == '"' {
        assert ("\\\"" + rest)[2..] == rest;
      } else {
        var e := [s[0]] + rest;
        if s[1..] != [] {
          EscapeHead(s[1..]);
        }
        assert e[1..] == rest;
      }
    }
  }

  /** In an escaped string every quote follows a backslash. */
  lemma {:induction false} EscapedQuotesFollowBackslash(s: string)
    ensures forall i :: 0 <= i < |EscapeQuotes(s)| && EscapeQuotes(s)[i] == '"' ==> i > 0 && EscapeQuotes(s)[i - 1] == '\\'
    decreases |s|
  {
    if s != [] {
      EscapedQuotesFollowBackslash(s[1..]);
      var rest := EscapeQuotes(s[1..]);
      var head: string := if s[0] == '"' then "\\\"" else [s[0]];
      var r := head + rest;
      forall i | 0 <= i < |r| && r[i] == '"'
        ensures i > 0 && r[i - 1] == '\\'
      {
        if i >= |head| {
          assert rest[i - |head|] == '"';
          assert r[i - 1] == rest[i - |head| - 1];
        } else {
          assert head[i] == '"';
        }
      }
    }
  }

  /** A title without quotes is written as it is. */
  lemma {:induction false} EscapeWithoutQuotes(s: string)
    requires '"' !in s
    ensures EscapeQuotes(s) == s
    decreases |s|
  {
    if s != [] {
      EscapeWithoutQuotes(s[1..]);
      assert [s[0]] + s[1..] == s;
    }
  }

  /** The title shown: the page's title, or `#<ID> (no title)` when it is empty. */
  function TitleOf(page: Page): (r: string)
    ensures page.title != "" ==> r == page.title
    ensures page.title == "" ==> r == "#" + IntToString(page.id) + " (no title)"
    ensures r != ""
  {
    if page.title == "" then "#" + IntToString(page.id) + " (no title)" else page.title
  }

  /** The fragment one page adds: `"<ID>":"<padding><escaped title>",`. */
  function Fragment(page: Page, depth: nat): (r: string)
    ensures StartsWith(r, "\"" + IntToString(page.id) + "\":\"" + Pad(depth))
    ensures |r| >= 2 && r[|r| - 2..] == "\","
  {
    "\"" + IntToString(page.id) + "\":\"" + Pad(depth) + EscapeQuotes(TitleOf(page)) + "\","
  }

  /** The fragment's title part reads back as the title shown. */
  lemma FragmentTitleReadsBack(page: Page, depth: nat)
    ensures var head := "\"" + IntToString(page.id) + "\":\"" + Pad(depth);
            var f := Fragment(page, depth);
            UnescapeQuotes(f[|head|..|f| - 2]) == TitleOf(page)
  {
    var head := "\"" + IntToString(page.id) + "\":\"" + Pad(depth);
    var f := Fragment(page, depth);
    assert f[|head|..|f| - 2] == EscapeQuotes(TitleOf(page));
    EscapeRoundTrip(TitleOf(page));
  }

  /** `start_el(&$output, $page, $depth)`: appends the page's fragment to the output. */
  method StartEl(output: string, page: Page, depth: nat) returns (newOutput: string)
    ensures newOutput == output + Fragment(page, depth)
    ensures StartsWith(newOutput, output)
  {
    var pad := Repeat("&nbsp;", depth * 3);
    var title := page.title;
    if title == "" {
      title := "#" + IntToString(page.id) + " (no title)";
    }
    newOutput := output + ("\"" + IntToString(page.id) + "\":\"" + pad + EscapeQuotes(title) + "\",");
    assert newOutput[..|output|] == output;
  }
}

=== FILE: wrappers.dfy ===
/** An optional value, for lookups that may find nothing (PHP's `false` or `null` results). */
module Wrappers {

  datatype Option<+T> = None | Some(value: T) {

    /** The value held, or `default` when there is none. */
    function GetOr(default: T): T {
      match this
      case Some(v) => v
      case None => default
    }
  }
}
